=== FILE: README.md ===
# PortScannerPro, modelled in Dafny

PortScannerPro is a small threaded TCP port scanner. Its deterministic core is modelled here:

- **The port-specification parser** `parse_ports`. It turns `"22,80,443"`, `"1-1024"` or a mix of both into the ascending list of port numbers they name.
- **The aggregation loop of `scan_host`.** It turns per-port probe outcomes into a result map `port -> {open, service_guess}`.
- **The two reports.**
  - The lines `pretty_print` prints.
  - The rows `write_csv` writes.
- **The `COMMON_PORTS` service table.** The scanner uses it to guess a service name for each port.

The TCP connect attempt is an oracle `probe: int -> bool`. The thread pool's completion order is a parameter `order`: any rearrangement of the submitted ports (a sequence with the same multiset). Elapsed times arrive as already formatted text.

Modules, one per file:

| module | file | what it holds |
|---|---|---|
| `Fallible` | fallible.dfy | `Result` and `Option` |
| `Text` | text.dfy | `str.strip()`, `str.split(',')` and `str.split('-', 1)` on ASCII text |
| `Decimal` | decimal.dfy | Python's `int()` on text and `str()` on integers |
| `Ordered` | ordered.dfy | `sorted()` of a finite set of integers |
| `CommonPorts` | common_ports.dfy | the service table and `COMMON_PORTS.get(port, "")` |
| `PortSpec` | port_spec.dfy | `parse_ports` |
| `Scanner` | scanner.dfy | `scan_port` with the socket as an oracle, and the `scan_host` loop |
| `Report` | report.dfy | `pretty_print` lines and `write_csv` rows, with readers that recover what they show |
| `Scenario` | scenario.dfy | one end-to-end run: parse, scan, report |

How Python's `int()` is modelled:

- Surrounding whitespace is accepted, but only the space and `\t` to `\r`. `str.strip()` also removes `\x1c` to `\x1f`; `int()` does not.
- An optional `+` or `-` sign is accepted.
- Digits may be separated by single underscores (`"1_000"`).
- Anything else is a `ValueError`, modelled as `Err(InvalidLiteral(text))`. The text is the exact string `int()` was given.

`ThreadPoolExecutor(max_workers=workers)` raises for `workers <= 0`. That case is modelled as `Err(NoWorkers(workers))`.

Three behaviours of `parse_ports` that a reader might not expect:

- **No bound on ports.** `parse_ports` checks no range at all, so `"70000"` parses to `[70000]`. Nothing outside 0..65535 is rejected.
- **Negative numbers.** They cannot come out of the parser, but not because of any check. A token holding `-` is cut at its first `-`. In `"-5"` the start is then the empty string, which `int()` refuses. In `"3--1"` the end is `"-1"`, so the range is empty. `PortSpec.ParsePortsNonNegative` states the resulting guarantee.
- **Ranges with start > end.** They contribute nothing and raise no error, because that is what Python's `range` does.

## Model

| member | source | states |
|---|---|---|
| PortSpec.ParsePorts | port_scanner.py:21-32 | The parse succeeds iff every comma-separated token is well formed. On success the list is strictly ascending (so it has no duplicates), and a number is in it iff some token names it. |
| PortSpec.TokenPorts | port_scanner.py:25-31 | A blank or whitespace-only token names nothing. A token that parses names only non-negative integers. |
| PortSpec.RangePorts | port_scanner.py:27-28 | The halves of a token cut at its first `-` give a set iff `int()` accepts both halves. The set is then exactly the integers from `int(start)` to `int(end)` inclusive. The start holds no `-`, so every port named is non-negative. |
| PortSpec.Range | port_scanner.py:28 | `range(lo, hi)` as a set holds exactly the integers x with lo <= x < hi, and nothing when lo >= hi. |
| PortSpec.Gather | port_scanner.py:23-31 | The set-accumulating loop succeeds iff every token is well formed. On success its set is the starting set united with every token's contribution. |
| PortSpec.GatherFirstError | port_scanner.py:24-31 | A failed parse reports the error of the first token that fails; every token before it parses. |
| PortSpec.FirstFailureMeans | port_scanner.py:24-31 | "First failure at index i" means token i fails with that error and all earlier tokens succeed. |
| PortSpec.GatherAppend | port_scanner.py:24-31 | Parsing the tokens `p + q` is parsing `p`, then continuing from its set with `q`; an error in `p` stops the parse. |
| PortSpec.GatherErrorIgnoresAcc | port_scanner.py:24-31 | The error a token list produces does not depend on the ports gathered before it. |
| PortSpec.GatherAbsorbed | port_scanner.py:24-31 | Tokens that name only ports already gathered leave the set unchanged. |
| PortSpec.NamedAppend | port_scanner.py:24-31 | Joining token lists joins both their well-formedness and the ports they name. |
| PortSpec.TokensCons | port_scanner.py:24-31 | A token list is well formed iff its first token and its rest are; it names a port iff its first token or its rest does. |
| PortSpec.ParsePortsNonNegative | port_scanner.py:26-31 | Every port `parse_ports` returns is >= 0, although no bound is checked. |
| PortSpec.SameTokensSameParse | port_scanner.py:23-32 | Two specifications with the same set of tokens either both fail or give the same list, whatever the tokens' order and repetitions. |
| PortSpec.SwapSpecs | port_scanner.py:23-32 | Swapping the two halves of `a,b` changes neither success nor result. |
| PortSpec.RepeatSpec | port_scanner.py:23-32 | Repeating a specification (`a,a`) gives the same parse as `a`. |
| PortSpec.ParseJoined | port_scanner.py:23-32 | `a,b` parses iff both `a` and `b` do. On success it lists the union of their ports. On failure it reports `a`'s error if `a` fails, and otherwise `b`'s. |
| PortSpec.OneTokenSpec | port_scanner.py:23-32 | A specification without commas gives the sorted set of its single token, or that token's error. |
| PortSpec.OneTokenError | port_scanner.py:24-31 | A specification without commas fails exactly with its token's error. |
| PortSpec.SingleToken | port_scanner.py:29-31 | The decimal spelling of any n >= 0 names exactly n, with no upper bound. |
| PortSpec.ParseSingle | port_scanner.py:29-32 | `parse_ports(str(n))` is `[n]` for every n >= 0, including values above 65535. |
| PortSpec.RangeToken | port_scanner.py:26-28 | The token `a-b` names exactly a..b inclusive, and nothing when a > b. |
| PortSpec.DashedTokenPorts | port_scanner.py:25-28 | A token made of digits, a `-` and a rest that does not end in whitespace is cut at that `-`: the rest, whatever else it holds, becomes the range end. |
| PortSpec.RangeSpec | port_scanner.py:26-32 | `parse_ports("a-b")` is the sorted listing of the range a..b. |
| PortSpec.ParseRange | port_scanner.py:26-32 | `parse_ports("a-b")` is the consecutive list a, a+1, ..., b, with b - a + 1 elements, and it is empty when a > b. |
| PortSpec.ConsecutiveListsRange | port_scanner.py:28-32 | `sorted(range(lo, hi))` has hi - lo elements, and element i is lo + i. |
| PortSpec.MissingEndToken | port_scanner.py:27-28 | The token `n-` fails on its empty end. |
| PortSpec.ParseMissingEnd | port_scanner.py:27-28 | `parse_ports("n-")` fails with `int('')`'s error. |
| PortSpec.NegativeToken | port_scanner.py:27-28 | The token `-n` fails on its empty start. |
| PortSpec.ParseNegative | port_scanner.py:27-28 | `parse_ports("-n")` fails with `int('')`'s error, for every n > 0. |
| PortSpec.DashBetweenNumbers | port_scanner.py:27-28 | The text `b-c` is not an integer literal, so `int()` refuses it. |
| PortSpec.TwoDashToken | port_scanner.py:27-28 | The token `a-b-c` fails on its end `b-c`. |
| PortSpec.ParseTwoDashes | port_scanner.py:27-28 | `parse_ports("a-b-c")` fails with the error for `b-c`. |
| PortSpec.MalformedWord | port_scanner.py:29-31 | `parse_ports("abc")` fails with `int('abc')`'s error. |
| PortSpec.MalformedMissingEnd | port_scanner.py:27-28 | `parse_ports("5-")` fails with `int('')`'s error. |
| PortSpec.MalformedNegative | port_scanner.py:27-28 | `parse_ports("-5")` fails with `int('')`'s error. |
| PortSpec.MalformedTwoDashes | port_scanner.py:27-28 | `parse_ports("1-2-3")` fails with `int('2-3')`'s error. |
| PortSpec.SeparatorToken | port_scanner.py:25-28 | A token `a<c>-b` with `c` in `\x1c`..`\x1f` fails on its start `a<c>`: `strip()` leaves the inner `c`, and `int()` refuses it. |
| PortSpec.ParseSeparatorStart | port_scanner.py:24-31 | `parse_ports` of such a token fails with the error for `a<c>`. |
| PortSpec.MalformedSeparator | port_scanner.py:24-31 | `parse_ports("1\x1c-3")` fails with `int("1\x1c")`'s error. |
| PortSpec.NumberThenSpec | port_scanner.py:23-32 | Prefixing a specification with `n,` keeps it parsable exactly when it was, and adds exactly n to the ports it lists. |
| PortSpec.ParseNumbers | port_scanner.py:23-32 | A comma list of numbers parses, and lists exactly the numbers written. |
| PortSpec.ParseSorted | port_scanner.py:23-32 | A comma list of numbers, in any order and with repeats, parses to their ascending duplicate-free listing. |
| PortSpec.ExampleList | port_scanner.py:23-32 | `parse_ports("22,80,443")` is `[22, 80, 443]`. |
| PortSpec.ExampleMerged | port_scanner.py:23-32 | `parse_ports("80,22,80")` is `[22, 80]`: duplicates merge and the list is sorted. |
| PortSpec.ExampleMixed | port_scanner.py:23-32 | `parse_ports("80,22,80,1-2")` is `[1, 2, 22, 80]`: numbers and a range merge into one ascending list. |
| PortSpec.JoinedListing | port_scanner.py:23-32 | When `a` and `b` parse, `a,b` parses to the ascending listing of the union of their ports. |
| PortSpec.ExampleRange | port_scanner.py:26-32 | `parse_ports("20-22")` is `[20, 21, 22]`. |
| PortSpec.ExampleEmpty | port_scanner.py:23-32 | `parse_ports("")` is `[]`. |
| Text.Strip | port_scanner.py:25 | `strip()` result is no longer than its input, and neither begins nor ends with whitespace. |
| Text.StripIsTrimmedInfix | port_scanner.py:25 | `strip()` result is a contiguous piece of its input, with only whitespace removed on either side. |
| Text.StripKeepsCharacters | port_scanner.py:25 | `strip()` adds no character. |
| Text.StripEmptyIff | port_scanner.py:25-30 | A token strips to the empty string iff it is all whitespace. |
| Text.StripUnpadded | port_scanner.py:25 | A token that starts and ends with a non-space is left unchanged. |
| Text.StripPadded | port_scanner.py:25 | Extra whitespace on either side does not change what `strip()` returns. |
| Text.Split | port_scanner.py:24 | `split(',')` gives at least one piece, no piece holds a comma, and joining the pieces with commas restores the input. |
| Text.SplitJoin | port_scanner.py:24 | Splitting the comma-join of comma-free pieces gives back those pieces. |
| Text.SplitAppend | port_scanner.py:24 | Splitting `a,b` gives the pieces of `a` followed by those of `b`. |
| Text.JoinAppend | port_scanner.py:24 | Joining two piece lists is joining each and putting a comma between them. |
| Text.SplitOnce | port_scanner.py:27 | `split('-', 1)` cuts at the first `-`: the start holds no `-`, and start + `-` + end is the input. |
| Text.SplitOnceAt | port_scanner.py:27 | Cutting at an index whose character is the first `-` gives the text before and after that index. |
| Text.IndexOf | port_scanner.py:26-27 | The index found holds the character, and no earlier index does. |
| Decimal.ParseLiteral | port_scanner.py:28-31 | A trimmed literal that parses is non-empty, starts with a digit or sign, and holds only digits, underscores and signs. Without a `-` it is non-negative. |
| Decimal.TrimInt | port_scanner.py:28-31 | The whitespace `int()` skips is removed from both ends: the result neither starts nor ends with it, adds no character, and drops only such whitespace. |
| Decimal.TrimIntPadded | port_scanner.py:28-31 | Extra `int()` whitespace on either side does not change the trimmed text. |
| Decimal.ParseBlank | port_scanner.py:28-31 | `int()` refuses empty and whitespace-only text. |
| Decimal.ParseBareSign | port_scanner.py:28-31 | `int()` refuses a sign without digits, with or without surrounding whitespace. |
| Decimal.ParseInt | port_scanner.py:28-31 | Text that `int()` accepts holds only whitespace, digits, underscores and signs, and without a `-` its value is non-negative. |
| Decimal.ParsePadded | port_scanner.py:28-31 | Surrounding space or `\t` to `\r` does not change what `int()` returns. |
| Decimal.ParseSeparatorPadded | port_scanner.py:28-31 | `int()` refuses any text that ends in one of `\x1c` to `\x1f`. |
| Decimal.ParseInnerDash | port_scanner.py:28 | Digit-led, digit-ended text with a `-` inside is refused. |
| Decimal.ShowNat | port_scanner.py:67 | `str(n)` for n >= 0 is a non-empty run of digits with no leading zero. |
| Decimal.ShowInt | port_scanner.py:67 | `str(n)` is non-empty and starts with `-` iff n < 0. |
| Decimal.ValueShowNat | port_scanner.py:67 | The digits of `str(n)` have the value n. |
| Decimal.ParseShowNat | port_scanner.py:28-31 | `int(str(n)) == n` for n >= 0. |
| Decimal.ParseShowInt | port_scanner.py:67 | `int(str(n)) == n` for every integer n. |
| Decimal.ShowIntInjective | port_scanner.py:67 | Different integers print differently. |
| Decimal.ShowIntHasNoSpace | port_scanner.py:67 | A printed integer holds no space. |
| Ordered.Min | port_scanner.py:32 | A non-empty finite set's minimum is in the set and no larger than any member. |
| Ordered.SortedSeq | port_scanner.py:32 | `sorted(s)` is strictly ascending, holds exactly the members of `s`, and has |s| elements. |
| Ordered.SortedUnique | port_scanner.py:32 | Any strictly ascending sequence whose members are exactly those of `s` is `sorted(s)`. |
| Ordered.AscendingUnique | port_scanner.py:32 | Two strictly ascending sequences with the same members are equal. |
| Ordered.AscendingCardinality | port_scanner.py:32 | A strictly ascending sequence has as many elements as distinct values. |
| CommonPorts.ServiceGuess | common_ports.py:4-26 | `COMMON_PORTS.get(port, "")` is non-empty iff the port is in the table, and a non-empty guess is one of the table's service names. |
| CommonPorts.TableKeysAreTcpPorts | common_ports.py:4-26 | Every key of the table lies in 1..65535. |
| CommonPorts.TableValuesNonEmpty | common_ports.py:4-26 | Every service name in the table is non-empty. |
| CommonPorts.WellKnownGuesses | common_ports.py:7-16 | 22 guesses `SSH`, 80 `HTTP` and 443 `HTTPS`. |
| CommonPorts.UnlistedGuess | common_ports.py:4-26 | 54321, 0 and 65536 are not in the table and guess `""`. |
| Scanner.ScanPort | port_scanner.py:34-43 | A probe reports the port it was given, open iff the oracle accepts the connection. |
| Scanner.Record | port_scanner.py:51-53 | Recording one outcome adds or replaces exactly that port's entry with its outcome and guess, and leaves every other entry alone. |
| Scanner.Collect | port_scanner.py:50-53 | After any completion order, the keys are the earlier keys plus the completed ports. Each completed port holds its probe outcome and guess; every other earlier entry is unchanged. |
| Scanner.ScanHost | port_scanner.py:45-55 | The scan fails iff the pool has no workers. On success its keys are exactly the submitted ports, and each entry is the probe outcome with `COMMON_PORTS.get(port, "")`. |
| Scanner.ScanMatchesExpected | port_scanner.py:46-53 | A successful scan equals the reference map: one expected entry per submitted port. |
| Scanner.OrderIrrelevant | port_scanner.py:48-50 | Any two completion orders and pool sizes give the same result map. |
| Scanner.DuplicatesIrrelevant | port_scanner.py:49-53 | Submitting a port twice gives the same map as submitting it once. |
| Scanner.ScanNothing | port_scanner.py:46-53 | Scanning no ports gives an empty map. |
| Scanner.ScanSize | port_scanner.py:49-53 | For a parsed (strictly ascending) port list the map has exactly one entry per port. |
| Report.OpenPorts | port_scanner.py:58-64 | The listed ports are strictly ascending, and a port is listed iff it is in the results and open. |
| Report.ServiceSuffix | port_scanner.py:66 | The suffix is empty iff the service name is empty. |
| Report.PortLines | port_scanner.py:64-67 | There is one line per port, in the given order, each showing that port and its guess. |
| Report.PrettyLines | port_scanner.py:57-67 | The output starts with a blank line and the heading naming the host and elapsed time. |
| Report.Heading | port_scanner.py:59 | The heading never reads as a port line, whatever the host and elapsed time. |
| Report.PortLine | port_scanner.py:67 | A port line reads back into exactly the port and service name it was printed from. |
| Report.ReadPortTextInverse | port_scanner.py:66-67 | A port number followed by its optional ` (svc)` reads back as that port and service. |
| Report.ReadParenthesisedInverse | port_scanner.py:66 | ` (svc)` gives back `svc` for every non-empty service name. |
| Report.ListedPortLines | port_scanner.py:64-67 | Reading the port lines gives each port with its guess, in order. |
| Report.ReadingsAppend | port_scanner.py:59-67 | What a reader recovers from consecutive blocks of lines is what it recovers from each block, concatenated. |
| Report.PrettyListsOpenPorts | port_scanner.py:57-67 | A reader of the output recovers exactly the open ports, ascending, each with its service guess. |
| Report.ListedIffOpen | port_scanner.py:57-67 | A port is shown iff it is open. Shown ports are strictly ascending, and each is shown with its own service guess. |
| Report.PrettyNoneOpen | port_scanner.py:60-62 | With no open port, no port line is printed. |
| Report.PrettySomeOpen | port_scanner.py:63-67 | With open ports, the lines shown are exactly the port lines of the open ports. |
| Report.NoOpenLineIff | port_scanner.py:60-61 | The "No open ports found" line is printed iff no port is open. |
| Report.NoneOpenShown | port_scanner.py:60-61 | With no open port the "No open ports" line is printed, and indeed every scanned port is closed. |
| Report.SomeOpenNotShown | port_scanner.py:60-67 | With an open port the "No open ports" line is absent, and some scanned port is open. |
| Report.PortLineIndent | port_scanner.py:67 | Every port line starts with three spaces, so it differs from the status lines, which are indented by two. |
| Report.NotPortLine | port_scanner.py:59-63 | A line without the `   - ` bullet is not read as a port line. |
| Report.HeadingListsNothing | port_scanner.py:59 | The blank line and the heading, each one `print` call, show no port, whatever the host name. |
| Report.KnownServiceShown | port_scanner.py:65-67 | A port in the table is printed as `   - <port> (<service name>)`: a listed open port always gets a parenthesised name. |
| Report.DataRows | port_scanner.py:81-83 | There is one data row per port, in the given order, each holding that port's entry. |
| Report.CsvRows | port_scanner.py:74-83 | The export has four preamble rows and then exactly one row per scanned port. |
| Report.DataRow | port_scanner.py:83 | A data row reads back into exactly the port and entry it was written from. |
| Report.ShowBool | port_scanner.py:83 | `str(b)` is `True` or `False`, and `True` iff b holds. |
| Report.Preamble | port_scanner.py:77-80 | The preamble is four rows, none of which reads as a data row. |
| Report.ReadDataRows | port_scanner.py:81-83 | The data rows of any port list read back into the results restricted to those ports. |
| Report.ReadPreamble | port_scanner.py:77-80 | After the `write_csv` preamble the export reads back exactly as its data rows do, with the host and elapsed time recovered. |
| Report.CsvRoundTrip | port_scanner.py:74-83 | Reading the written rows back recovers the host, the elapsed time and the whole result map. |
| Report.CsvRowsAscending | port_scanner.py:81-83 | Every data row holds a scanned port and its entry. The ports are strictly ascending, and every scanned port has a row. |
| Scenario.ParseAround | port_scanner.py:26-32 | `parse_ports("L-(L+2)")` is `[L, L+1, L+2]`. |
| Scenario.ScanAround | port_scanner.py:45-55 | Scanning those three ports while only L+1 listens gives three entries: L+1 is open with its guess, and the other two are closed. |
| Scenario.ReportAround | port_scanner.py:57-67 | The printed report of that scan shows L+1 alone, with its service guess. |

## Left out

- **Socket work of `scan_port`** (port_scanner.py:34-43). It is network I/O: connect, timeout and close. It becomes the `probe` oracle. A refused connection, and any exception from `connect_ex` or `close` inside the `try`, is a closed port.
- **Failures outside the `try` of `scan_port`** (port_scanner.py:36-37). `socket.socket()` (for example when file descriptors run out) and `settimeout` (for example with a negative timeout) can raise. `fut.result()` (port_scanner.py:51) re-raises that exception, so `scan_host` aborts. The model has no timeout parameter and never aborts this way.
- **`ThreadPoolExecutor` and `as_completed`** (port_scanner.py:48-50). Concurrency is modelled only through its observable effect: outcomes arrive in some order that holds each submitted port.
- **Timing** (port_scanner.py:47,54). `time.time()` is a clock, and the float formatting `:.2f` and `:.4f` are left out. Elapsed time enters the reports as preformatted text, and `Scanner.ScanHost` returns only the result map.
- **`write_json`** (port_scanner.py:69-72). It is a `json.dump` of the same map to a file; JSON encoding is outside the modelled core.
- **File and console effects** (`open`, `csv.writer`, `print`). `pretty_print` is modelled as the sequence of lines it prints. `write_csv` is modelled as the sequence of rows it writes.
- **CSV quoting.** Fields are modelled unquoted, since quoting is a `csv.writer` detail. A host name holding a comma or quote would be quoted in the file.
- **`main` and argument parsing** (port_scanner.py:85-114).
- **Unicode.** The model recognises only ASCII whitespace in `strip()` and `int()`, and only ASCII digits. When a text holds any non-ASCII character, `int()` first maps every non-ASCII Unicode space to a plain space; that path is not modelled.
- Decimal.ParseInt: does not model the limit on the number of digits that `int()` converts (4300 by default in CPython 3.11 and later and in some security releases of earlier versions; configurable, and absent in older versions). Longer literals raise `ValueError` there; the model accepts them. `str()` has the same limit when printing.
- PortSpec.SingleToken: holds for every n only without that digit limit; a port number with more than 4300 digits raises in CPython 3.11 and later.
- PortSpec.ParseSingle: the same digit limit applies; `str(n)` and `int()` both raise past it in CPython 3.11 and later.
- Scanner.DuplicatesIrrelevant: holds because `probe` gives one answer per port. The source connects once per submission, so a port listed twice is probed twice and the later completion wins; with a real network the two answers can differ. `parse_ports` never yields a duplicate, so `scan_host` meets one only when called directly.
- Report.HeadingListsNothing: a model line is one `print` argument. A host name holding `\n` or `\r` shows as several terminal lines.
- Report.PrettyListsOpenPorts: reads the printed lines as `print` arguments; a host name holding `\n` adds terminal lines that a line-by-line reader of the console would also see.
- Report.ListedIffOpen: the same line convention; a host holding `\n` could spell extra text that looks like a port line on the console.
- Scenario.ReportAround: the same line convention; the statement is about `print` arguments, not about terminal lines.
- Report.Heading: the heading is one `print` argument and never reads as a port line; a host name holding `\n` can still put a port-like terminal line (`x\n   - 22 (SSH)\ny`) on the console.
- Report.PrettyNoneOpen: "no port line" is about `print` arguments; a host name holding `\n` can print a terminal line that looks like one.
- Report.PrettySomeOpen: "the lines shown" are `print` arguments; a host name holding `\n` adds terminal lines that are not among them.
- Report.NoOpenLineIff: the "No open ports" line is tracked as a `print` argument; a host name holding `\n` can spell the same text on its own terminal line while ports are open.
- Report.SomeOpenNotShown: the same convention; the absence of the "No open ports" line is among `print` arguments, not terminal lines.

=== FILE: common_ports.dfy ===
/**
  The static table of well-known TCP ports and the service-name guess
  the scanner attaches to each probed port.
 */
module CommonPorts {

  /** Port number to service name, for a few well-known services. */
  const Table: map<int, string> := map[
    20 := "FTP-data",
    21 := "FTP",
    22 := "SSH",
    23 := "Telnet",
    25 := "SMTP",
    53 := "DNS",
    80 := "HTTP",
    110 := "POP3",
    143 := "IMAP",
    161 := "SNMP",
    389 := "LDAP",
    443 := "HTTPS",
    465 := "SMTPS",
    993 := "IMAPS",
    995 := "POP3S",
    3306 := "MySQL",
    5432 := "PostgreSQL",
    6379 := "Redis",
    27017 := "MongoDB",
    8080 := "HTTP-alt",
    8443 := "HTTPS-alt"
  ]

  /** `COMMON_PORTS.get(port, "")`: the table's name for `port`, or the
      empty string for a port the table does not list. */
  function ServiceGuess(port: int): (svc: string)
    ensures svc != "" <==> port in Table
    ensures svc == "" || svc in Table.Values
  {
    TableValuesNonEmpty();
    if port in Table then Table[port] else ""
  }

  /** Every listed port is a valid TCP port number. */
  lemma TableKeysAreTcpPorts()
    ensures forall p :: p in Table ==> 1 <= p <= 65535
  {
  }

  /** Every listed service has a non-empty name. */
  lemma TableValuesNonEmpty()
    ensures forall p :: p in Table ==> Table[p] != ""
  {
  }

  /** The guesses for the three best-known services. */
  lemma WellKnownGuesses()
    ensures ServiceGuess(22) == "SSH"
    ensures ServiceGuess(80) == "HTTP"
    ensures ServiceGuess(443) == "HTTPS"
  {
  }

  /** A port the table does not list gets no guess. */
  lemma UnlistedGuess()
    ensures ServiceGuess(54321) == ""
    ensures ServiceGuess(0) == ""
    ensures ServiceGuess(65536) == ""
  {
  }
}

=== FILE: decimal.dfy ===
/**
  Base-10 integer text as Python reads it with `int(text)` and writes it
  with `str(n)`, restricted to ASCII: surrounding whitespace is ignored,
  one optional `+` or `-` sign may come first, and the digits may be
  grouped by single underscores (`1_000`).
 */
module Decimal {
  import opened Fallible
  import opened Text

  predicate IsDigit(c: char) {
    '0' <= c <= '9'
  }

  predicate AllDigits(s: string) {
    forall k :: 0 <= k < |s| ==> IsDigit(s[k])
  }

  function DigitValue(c: char): (d: nat)
    requires IsDigit(c)
    ensures d < 10
  {
    (c as int) - ('0' as int)
  }

  function DigitChar(d: nat): (c: char)
    requires d < 10
    ensures IsDigit(c) && DigitValue(c) == d
  {
    (('0' as int) + d) as char
  }

  /** The number the digit string `ds` denotes, most significant digit first. */
  function Value(ds: string): nat
    requires AllDigits(ds)
  {
    if ds == [] then 0 else Value(ds[..|ds| - 1]) * 10 + DigitValue(ds[|ds| - 1])
  }

  /** Python's digit-group rule: digits, with single underscores allowed
      only between two digits. */
  predicate WellGrouped(b: string) {
    && b != []
    && IsDigit(b[0]) && IsDigit(b[|b| - 1])
    && (forall k :: 0 <= k < |b| ==> IsDigit(b[k]) || b[k] == '_')
    && (forall k, m :: 0 <= k < |b| && 0 <= m < |b| && m == k + 1 ==> !(b[k] == '_' && b[m] == '_'))
  }

  /** The digits of `b`, underscores removed. */
  function DropUnderscores(b: string): (ds: string)
    requires forall k :: 0 <= k < |b| ==> IsDigit(b[k]) || b[k] == '_'
    ensures AllDigits(ds) && |ds| <= |b|
    ensures AllDigits(b) ==> ds == b
  {
    if b == [] then []
    else if b[0] == '_' then DropUnderscores(b[1..])
    else [b[0]] + DropUnderscores(b[1..])
  }

  /** The unsigned part of an integer literal. */
  function ParseUnsigned(b: string): (r: Option<nat>)
    ensures r.Some? <==> WellGrouped(b)
  {
    if WellGrouped(b) then Some(Value(DropUnderscores(b))) else None
  }

  /** The whitespace `int()` skips around a literal: space and `\t`
      through `\r`. Unlike `str.strip()`, it keeps `\x1c` to `\x1f`. */
  predicate IsIntSpace(c: char) {
    c == ' ' || '\t' <= c <= '\r'
  }

  predicate AllIntSpace(s: string) {
    forall k :: 0 <= k < |s| ==> IsIntSpace(s[k])
  }

  /** `text` without the `int()` whitespace at either end. Every character
      of `text` is kept or is such whitespace, and nothing is added. */
  function TrimInt(text: string): (t: string)
    ensures t == [] || (!IsIntSpace(t[0]) && !IsIntSpace(t[|t| - 1]))
    ensures forall c :: c in t ==> c in text
    ensures forall c :: c in text ==> c in t || IsIntSpace(c)
    decreases |text|
  {
    if text != [] && IsIntSpace(text[0]) then
      var t := TrimInt(text[1..]);
      assert forall c :: c in text ==> c == text[0] || c in text[1..];
      t
    else if text != [] && IsIntSpace(text[|text| - 1]) then
      var t := TrimInt(text[..|text| - 1]);
      assert forall c :: c in text ==> c == text[|text| - 1] || c in text[..|text| - 1];
      t
    else
      text
  }

  /** Python's `int(text)` in base 10: `None` where Python raises
      `ValueError`. Only digits, underscores, signs and `int()` whitespace
      can occur in text it accepts. */
  function ParseInt(text: string): (r: Option<int>)
    ensures r.Some? ==> forall c :: c in text ==> IsIntSpace(c) || IsDigit(c) || c == '_' || c == '+' || c == '-'
    ensures r.Some? && '-' !in text ==> r.value >= 0
  {
    ParseLiteral(TrimInt(text))
  }

  /** An integer literal with no surrounding whitespace: an optional sign
      followed by the unsigned part. */
  function ParseLiteral(t: string): (r: Option<int>)
    ensures r.Some? ==> t != [] && (IsDigit(t[0]) || t[0] == '+' || t[0] == '-')
    ensures r.Some? ==> forall c :: c in t ==> IsDigit(c) || c == '_' || c == '+' || c == '-'
    ensures r.Some? && '-' !in t ==> r.value >= 0
  {
    if t != [] && (t[0] == '+' || t[0] == '-') then
      match ParseUnsigned(t[1..])
      case None => None
      case Some(v) =>
        assert forall c :: c in t ==> c == t[0] || c in t[1..];
        if t[0] == '-' then Some(-(v as int)) else Some(v as int)
    else
      match ParseUnsigned(t)
      case None => None
      case Some(v) => Some(v as int)
  }

  /** `int()` refuses an empty or all-whitespace string, including one
      made of the separators `\x1c` to `\x1f` that `int()` does not skip. */
  lemma {:induction false} ParseBlank(text: string)
    requires AllSpace(text)
    ensures ParseInt(text).None?
  {
    var t := TrimInt(text);
    if t != [] {
      assert t[0] in text;
      assert !IsDigit(t[0]) && t[0] != '+' && t[0] != '-';
    }
  }

  /** A text with no `int()` whitespace at either end is its own trim. */
  lemma {:induction false} TrimIntUnpadded(s: string)
    requires s == [] || (!IsIntSpace(s[0]) && !IsIntSpace(s[|s| - 1]))
    ensures TrimInt(s) == s
  {
  }

  /** `int()` whitespace added around a text does not change its trim. */
  lemma {:induction false} TrimIntPadded(w1: string, s: string, w2: string)
    requires AllIntSpace(w1) && AllIntSpace(w2)
    ensures TrimInt(w1 + s + w2) == TrimInt(s)
    decreases |w1| + |s| + |w2|
  {
    var x := w1 + s + w2;
    if w1 != [] {
      assert x[0] == w1[0] && x[1..] == w1[1..] + s + w2;
      TrimIntPadded(w1[1..], s, w2);
    } else if w2 == [] {
      assert x == s;
    } else if s != [] && IsIntSpace(s[0]) {
      assert x[0] == s[0] && x[1..] == [] + s[1..] + w2;
      TrimIntPadded([], s[1..], w2);
    } else if s == [] {
      assert x == w2 && x[1..] == [] + [] + w2[1..];
      TrimIntPadded([], [], w2[1..]);
    } else {
      var w2' := w2[..|w2| - 1];
      assert x[0] == s[0] && x[|x| - 1] == w2[|w2| - 1];
      assert x[..|x| - 1] == [] + s + w2';
      TrimIntPadded([], s, w2');
    }
  }

  /** Python's `str(n)` for a natural number: no sign, no leading zero. */
  function ShowNat(n: nat): (s: string)
    ensures s != [] && AllDigits(s)
    ensures s[0] != '0' || n == 0
  {
    if n < 10 then [DigitChar(n)] else ShowNat(n / 10) + [DigitChar(n % 10)]
  }

  /** Python's `str(n)` for any integer. */
  function ShowInt(n: int): (s: string)
    ensures s != []
    ensures n < 0 <==> s[0] == '-'
  {
    if n < 0 then "-" + ShowNat(-n) else ShowNat(n)
  }

  /** `Value` reads back what `ShowNat` writes. */
  lemma {:induction false} ValueShowNat(n: nat)
    ensures Value(ShowNat(n)) == n
  {
    if n >= 10 {
      var s := ShowNat(n);
      assert s[..|s| - 1] == ShowNat(n / 10);
      ValueShowNat(n / 10);
    }
  }

  lemma {:induction false} ParseUnsignedShowNat(n: nat)
    ensures ParseUnsigned(ShowNat(n)) == Some(n)
  {
    var s := ShowNat(n);
    assert WellGrouped(s);
    ValueShowNat(n);
  }

  /** `int(str(n)) == n` for every natural number. */
  lemma {:induction false} ParseShowNat(n: nat)
    ensures ParseInt(ShowNat(n)) == Some(n)
  {
    var s := ShowNat(n);
    TrimIntUnpadded(s);
    ParseUnsignedShowNat(n);
  }

  /** `int(str(n)) == n` for every integer. */
  lemma {:induction false} ParseShowInt(n: int)
    ensures ParseInt(ShowInt(n)) == Some(n)
  {
    if n < 0 {
      ParseShowNegative(n);
    } else {
      ParseShowNat(n);
    }
  }

  lemma {:induction false} ParseShowNegative(n: int)
    requires n < 0
    ensures ParseInt(ShowInt(n)) == Some(n)
  {
    var m: nat := -n;
    var digits := ShowNat(m);
    var s := ShowInt(n);
    assert s == "-" + digits;
    assert s[|s| - 1] == digits[|digits| - 1];
    TrimIntUnpadded(s);
    assert s[1..] == digits;
    ParseUnsignedShowNat(m);
  }

  /** `str` never writes two numbers the same way. */
  lemma {:induction false} ShowIntInjective(m: int, n: int)
    requires ShowInt(m) == ShowInt(n)
    ensures m == n
  {
    ParseShowInt(m);
    ParseShowInt(n);
  }

  /** `int()` ignores the whitespace it skips around the literal. */
  lemma {:induction false} ParsePadded(w1: string, text: string, w2: string)
    requires AllIntSpace(w1) && AllIntSpace(w2)
    ensures ParseInt(w1 + text + w2) == ParseInt(text)
  {
    TrimIntPadded(w1, text, w2);
  }

  /** A file separator `\x1c` to `\x1f` next to a literal makes `int()`
      refuse it, although `str.strip()` would remove it. */
  lemma {:induction false} ParseSeparatorPadded(text: string, c: char)
    requires '\U{1C}' <= c <= '\U{1F}'
    ensures ParseInt(text + [c]).None?
  {
    assert c in text + [c];
  }

  /** A sign with nothing but whitespace around it is refused. */
  lemma {:induction false} ParseBareSign(w1: string, sign: char, w2: string)
    requires AllIntSpace(w1) && AllIntSpace(w2) && (sign == '+' || sign == '-')
    ensures ParseInt(w1 + [sign] + w2).None?
  {
    ParsePadded(w1, [sign], w2);
    TrimIntUnpadded([sign]);
  }

  /** A literal that starts with a digit and has a `-` further on is refused. */
  lemma {:induction false} ParseInnerDash(t: string, k: nat)
    requires t != [] && IsDigit(t[0]) && IsDigit(t[|t| - 1])
    requires 0 < k < |t| && t[k] == '-'
    ensures ParseInt(t).None?
  {
    TrimIntUnpadded(t);
    assert !WellGrouped(t) by {
      assert !(IsDigit(t[k]) || t[k] == '_');
    }
  }

  /** `str(n)` never contains a space. */
  lemma {:induction false} ShowIntHasNoSpace(n: int)
    ensures ' ' !in ShowInt(n)
  {
    var s := ShowInt(n);
    forall k | 0 <= k < |s|
      ensures s[k] != ' '
    {
      if n < 0 && k > 0 {
        assert s[k] == ShowNat(-n)[k - 1];
      }
    }
  }
}

=== FILE: fallible.dfy ===
/**
  Success/failure wrappers used in place of Python's exceptions and of
  `dict.get` returning nothing.
 */
module Fallible {

  /** The value of a Python expression that either returns or raises. */
  datatype Result<+T, +E> = Ok(value: T) | Err(error: E)

  /** A value that may be absent. */
  datatype Option<+T> = None | Some(value: T)
}

=== FILE: ordered.dfy ===
/**
  Python's `sorted(s)` on a finite set of integers: the ascending,
  duplicate-free listing of the set.
 */
module Ordered {

  predicate StrictlyAscending(s: seq<int>) {
    forall i, j :: 0 <= i < j < |s| ==> s[i] < s[j]
  }

  /** The members of a non-empty sequence are its head and those of its tail. */
  lemma {:induction false} HeadAndTail(s: seq<int>)
    requires s != []
    ensures forall p :: p in s <==> p == s[0] || p in s[1..]
  {
    assert s == [s[0]] + s[1..];
  }

  /** `m` is the least element of `s`. */
  predicate IsLeast(m: int, s: set<int>) {
    m in s && forall y :: y in s ==> m <= y
  }

  /** Every non-empty finite set of integers has a least element. */
  lemma {:induction false} MinExists(s: set<int>)
    requires s != {}
    ensures exists m :: IsLeast(m, s)
    decreases |s|
  {
    if forall x :: x !in s {
      assert false;
    }
    var x :| x in s;
    var rest := s - {x};
    if rest == {} {
      assert s == {x};
      assert IsLeast(x, s);
    } else {
      MinExists(rest);
      var m :| IsLeast(m, rest);
      var least := if x < m then x else m;
      assert IsLeast(least, s) by {
        forall y | y in s ensures least <= y {
          if y != x {
            assert y in rest;
          }
        }
      }
    }
  }

  /** The least element of a non-empty set. */
  function Min(s: set<int>): (m: int)
    requires s != {}
    ensures IsLeast(m, s)
  {
    MinExists(s);
    var m :| IsLeast(m, s);
    m
  }

  /** `sorted(s)`: the elements of `s`, each once, in ascending order. */
  function SortedSeq(s: set<int>): (r: seq<int>)
    ensures StrictlyAscending(r)
    ensures forall x :: x in r <==> x in s
    ensures |r| == |s|
    decreases |s|
  {
    if s == {} then []
    else
      var m := Min(s);
      var rest := SortedSeq(s - {m});
      assert forall i :: 0 <= i < |rest| ==> m < rest[i] by {
        forall i | 0 <= i < |rest| ensures m < rest[i] {
          assert rest[i] in s - {m};
        }
      }
      [m] + rest
  }

  /** An ascending duplicate-free listing of `s` is `SortedSeq(s)`: the
      listing is determined by the set alone. */
  lemma {:induction false} SortedUnique(s: set<int>, r: seq<int>)
    requires StrictlyAscending(r)
    requires forall x :: x in r <==> x in s
    ensures r == SortedSeq(s)
    decreases |r|
  {
    if r == [] {
      EmptyListing(s, r);
    } else {
      HeadIsMin(s, r);
      TailListsRest(s, r);
      SortedUnique(s - {r[0]}, r[1..]);
      ConsListing(s, r);
    }
  }

  lemma {:induction false} ConsListing(s: set<int>, r: seq<int>)
    requires s != {} && r != [] && r[0] == Min(s)
    requires r[1..] == SortedSeq(s - {r[0]})
    ensures r == SortedSeq(s)
  {
    SortedSeqUnfold(s);
    assert r == [r[0]] + r[1..];
  }

  lemma {:induction false} EmptyListing(s: set<int>, r: seq<int>)
    requires r == [] && forall x :: x in r <==> x in s
    ensures s == {}
  {
    assert forall x :: x !in s;
  }

  lemma {:induction false} SortedSeqUnfold(s: set<int>)
    requires s != {}
    ensures SortedSeq(s) == [Min(s)] + SortedSeq(s - {Min(s)})
  {
  }

  lemma {:induction false} HeadIsMin(s: set<int>, r: seq<int>)
    requires StrictlyAscending(r) && r != []
    requires forall x :: x in r <==> x in s
    ensures s != {} && r[0] == Min(s)
  {
    assert r[0] in r;
    var m := Min(s);
    assert m in r;
    var k :| 0 <= k < |r| && r[k] == m;
  }

  lemma {:induction false} TailListsRest(s: set<int>, r: seq<int>)
    requires StrictlyAscending(r) && r != []
    requires forall x :: x in r <==> x in s
    ensures StrictlyAscending(r[1..])
    ensures forall x :: x in r[1..] <==> x in s - {r[0]}
  {
    var rest := r[1..];
    forall x
      ensures x in rest <==> x in s - {r[0]}
    {
      if x in rest {
        var k :| 0 <= k < |rest| && rest[k] == x;
        assert r[k + 1] == x && r[0] < r[k + 1];
      }
      if x in s - {r[0]} {
        assert x in r;
        var k :| 0 <= k < |r| && r[k] == x;
        assert k != 0;
        assert rest[k - 1] == x;
      }
    }
  }

  /** A strictly ascending sequence has as many elements as distinct values. */
  lemma {:induction false} AscendingCardinality(r: seq<int>)
    requires StrictlyAscending(r)
    ensures |set x | x in r| == |r|
  {
    var s := set x | x in r;
    SortedUnique(s, r);
  }

  /** Two ascending duplicate-free sequences with the same elements are equal. */
  lemma {:induction false} AscendingUnique(r1: seq<int>, r2: seq<int>)
    requires StrictlyAscending(r1) && StrictlyAscending(r2)
    requires forall x :: x in r1 <==> x in r2
    ensures r1 == r2
  {
    var s := set x | x in r1;
    SortedUnique(s, r1);
    SortedUnique(s, r2);
  }
}

=== FILE: port_spec.dfy ===
/**
  The port-specification parser: `"22,80,443"`, `"1-1024"` or a mix of
  both becomes the ascending list of the port numbers it names.

  A specification is split on commas into tokens. Each token is stripped;
  a blank token names nothing; a token holding a `-` is cut at the first
  `-` into a start and an end and names every integer from start to end
  inclusive (nothing when start > end); any other token names the single
  integer it spells. The union of the tokens' sets is returned sorted.
  A piece that `int()` refuses aborts the whole parse. No bound is
  applied to the numbers.
 */
module PortSpec {
  import opened Fallible
  import opened Text
  import opened Decimal
  import opened Ordered

  /** The `ValueError` `int()` raises, with the text it was given. */
  datatype SpecError = InvalidLiteral(text: string)

  /** Python's `range(lo, hi)` as a set: empty unless `lo < hi`. */
  function Range(lo: int, hi: int): (r: set<int>)
    ensures forall x :: x in r <==> lo <= x < hi
    decreases hi - lo
  {
    if lo >= hi then {} else {lo} + Range(lo + 1, hi)
  }

  /** The ports one comma-separated token names, or the literal `int()`
      refuses first. */
  function TokenPorts(raw: string): (r: Result<set<int>, SpecError>)
    ensures AllSpace(raw) ==> r == Ok({})
    ensures r.Ok? ==> forall x :: x in r.value ==> x >= 0
  {
    var part := Strip(raw);
    StripEmptyIff(raw);
    if '-' in part then
      var h := SplitOnce(part, '-');
      RangePorts(h.before, h.after)
    else if part == [] then
      Ok({})
    else
      match ParseInt(part)
      case None => Err(InvalidLiteral(part))
      case Some(n) => Ok({n})
  }

  /** `range(int(start), int(end) + 1)` for the two halves of a token cut
      at its first `-`; the start holds no `-`, so it is never negative. */
  function RangePorts(start: string, end: string): (r: Result<set<int>, SpecError>)
    requires '-' !in start
    ensures r.Ok? <==> ParseInt(start).Some? && ParseInt(end).Some?
    ensures r.Ok? ==> forall x :: x in r.value <==> ParseInt(start).value <= x <= ParseInt(end).value
    ensures r.Ok? ==> forall x :: x in r.value ==> x >= 0
  {
    match ParseInt(start)
    case None => Err(InvalidLiteral(start))
    case Some(a) =>
      match ParseInt(end)
      case None => Err(InvalidLiteral(end))
      case Some(b) => Ok(Range(a, b + 1))
  }

  /** Token `t` is well formed and names `x`. */
  predicate Contributes(t: string, x: int) {
    TokenPorts(t).Ok? && x in TokenPorts(t).value
  }

  /** Some token of `tokens` names `x`. */
  predicate Named(tokens: seq<string>, x: int) {
    exists t :: t in tokens && Contributes(t, x)
  }

  /** Every token of `tokens` is well formed. */
  predicate AllWellFormed(tokens: seq<string>) {
    forall t :: t in tokens ==> TokenPorts(t).Ok?
  }

  /** The tokens of `tokens` are those of its head and of its tail. */
  lemma {:induction false} TokensCons(tokens: seq<string>)
    requires tokens != []
    ensures AllWellFormed(tokens) <==> TokenPorts(tokens[0]).Ok? && AllWellFormed(tokens[1..])
    ensures forall x :: Named(tokens, x) <==> Contributes(tokens[0], x) || Named(tokens[1..], x)
  {
    assert forall t :: t in tokens <==> t == tokens[0] || t in tokens[1..];
  }

  /** The loop over the tokens: `acc` is the set gathered so far, and the
      first token that fails ends the loop with its error. */
  function Gather(acc: set<int>, tokens: seq<string>): (r: Result<set<int>, SpecError>)
    ensures r.Ok? <==> AllWellFormed(tokens)
    ensures r.Ok? ==> forall x :: x in r.value <==> x in acc || Named(tokens, x)
    decreases |tokens|
  {
    if tokens == [] then Ok(acc)
    else
      TokensCons(tokens);
      match TokenPorts(tokens[0])
      case Err(e) => Err(e)
      case Ok(c) => Gather(acc + c, tokens[1..])
  }

  /** `parse_ports(spec)`: the sorted ports the specification names, or the
      error of the first literal `int()` refuses. */
  function ParsePorts(spec: string): (r: Result<seq<int>, SpecError>)
    ensures r.Ok? <==> AllWellFormed(Split(spec, ','))
    ensures r.Ok? ==> StrictlyAscending(r.value)
    ensures r.Ok? ==> forall x :: x in r.value <==> Named(Split(spec, ','), x)
  {
    match Gather({}, Split(spec, ','))
    case Err(e) => Err(e)
    case Ok(s) => Ok(SortedSeq(s))
  }

  /** No port `parse_ports` returns is negative: a start never holds a
      `-`, and neither does a single value. There is no upper bound. */
  lemma {:induction false} ParsePortsNonNegative(spec: string)
    ensures ParsePorts(spec).Ok? ==>
              forall i :: 0 <= i < |ParsePorts(spec).value| ==> ParsePorts(spec).value[i] >= 0
  {
    if ParsePorts(spec).Ok? {
      var ts := Split(spec, ',');
      var r := ParsePorts(spec).value;
      forall i | 0 <= i < |r| ensures r[i] >= 0 {
        assert Named(ts, r[i]);
        var t :| t in ts && Contributes(t, r[i]);
      }
    }
  }

  /** Item `i` of `xs` is the first one `check` refuses, and it is refused
      with `e`. */
  predicate FirstFailure<X>(check: X -> Result<set<int>, SpecError>, xs: seq<X>, i: nat, e: SpecError)
    decreases i
  {
    && i < |xs|
    && if i == 0 then check(xs[0]) == Err(e)
       else check(xs[0]).Ok? && FirstFailure(check, xs[1..], i - 1, e)
  }

  /** The item `FirstFailure` names is refused, and those before it are not. */
  lemma {:induction false} FirstFailureMeans<X>(check: X -> Result<set<int>, SpecError>, xs: seq<X>,
                                                i: nat, e: SpecError)
    requires FirstFailure(check, xs, i, e)
    ensures i < |xs| && check(xs[i]) == Err(e)
    ensures forall j :: 0 <= j < i ==> check(xs[j]).Ok?
    decreases i
  {
    if i > 0 {
      FirstFailureMeans(check, xs[1..], i - 1, e);
      forall j | 0 <= j < i ensures check(xs[j]).Ok? {
        if j > 0 {
          assert xs[j] == xs[1..][j - 1];
        }
      }
    }
  }

  /** A failed parse reports the first token that fails, and that token's
      first refused literal. */
  lemma {:induction false} GatherFirstError(acc: set<int>, tokens: seq<string>)
    ensures Gather(acc, tokens).Err? ==>
              exists i: nat :: FirstFailure(TokenPorts, tokens, i, Gather(acc, tokens).error)
    decreases |tokens|
  {
    if Gather(acc, tokens).Err? {
      var e := Gather(acc, tokens).error;
      if TokenPorts(tokens[0]).Err? {
        assert FirstFailure(TokenPorts, tokens, 0, e);
      } else {
        var rest := tokens[1..];
        var acc' := acc + TokenPorts(tokens[0]).value;
        assert Gather(acc', rest) == Gather(acc, tokens);
        GatherFirstError(acc', rest);
        var i: nat :| FirstFailure(TokenPorts, rest, i, e);
        assert FirstFailure(TokenPorts, tokens, i + 1, e);
      }
    }
  }

  /** Gathering `p + q` gathers `p`, then carries on with `q`. */
  lemma {:induction false} GatherAppend(acc: set<int>, p: seq<string>, q: seq<string>)
    ensures Gather(acc, p + q) == match Gather(acc, p)
                                  case Err(e) => Err(e)
                                  case Ok(s) => Gather(s, q)
    decreases |p|
  {
    if p == [] {
      assert p + q == q;
    } else {
      assert (p + q)[0] == p[0];
      assert (p + q)[1..] == p[1..] + q;
      if TokenPorts(p[0]).Ok? {
        GatherAppend(acc + TokenPorts(p[0]).value, p[1..], q);
      }
    }
  }

  /** The parse depends on the set of tokens only: reordering the tokens
      or repeating one gives the same ports, and fails exactly when the
      original fails. */
  lemma {:induction false} SameTokensSameParse(spec1: string, spec2: string)
    requires forall t :: t in Split(spec1, ',') <==> t in Split(spec2, ',')
    ensures ParsePorts(spec1).Ok? <==> ParsePorts(spec2).Ok?
    ensures ParsePorts(spec1).Ok? ==> ParsePorts(spec1) == ParsePorts(spec2)
  {
    var t1, t2 := Split(spec1, ','), Split(spec2, ',');
    if ParsePorts(spec1).Ok? {
      var s1, s2 := Gather({}, t1).value, Gather({}, t2).value;
      forall x ensures x in s1 <==> x in s2 {
        if Named(t1, x) {
          var t :| t in t1 && Contributes(t, x);
          assert t in t2;
        }
        if Named(t2, x) {
          var t :| t in t2 && Contributes(t, x);
          assert t in t1;
        }
      }
      assert s1 == s2;
    }
  }

  /** `"a,b"` and `"b,a"` name the same ports. */
  lemma {:induction false} SwapSpecs(a: string, b: string)
    ensures ParsePorts(a + "," + b).Ok? <==> ParsePorts(b + "," + a).Ok?
    ensures ParsePorts(a + "," + b).Ok? ==> ParsePorts(a + "," + b) == ParsePorts(b + "," + a)
  {
    SplitAppend(a, b, ',');
    SplitAppend(b, a, ',');
    SameTokensSameParse(a + "," + b, b + "," + a);
  }

  /** Once a set holds everything `tokens` name, gathering them again adds nothing. */
  lemma {:induction false} GatherAbsorbed(acc: set<int>, tokens: seq<string>)
    requires AllWellFormed(tokens)
    requires forall x :: Named(tokens, x) ==> x in acc
    ensures Gather(acc, tokens) == Ok(acc)
  {
    var r := Gather(acc, tokens).value;
    forall x ensures x in r <==> x in acc {
    }
    assert r == acc;
  }

  /** `"a,a"` parses exactly as `"a"`, error included. */
  lemma {:induction false} RepeatSpec(a: string)
    ensures ParsePorts(a + "," + a) == ParsePorts(a)
  {
    var ts := Split(a, ',');
    SplitAppend(a, a, ',');
    GatherAppend({}, ts, ts);
    if Gather({}, ts).Ok? {
      GatherAbsorbed(Gather({}, ts).value, ts);
    }
  }

  /** A token spelling one natural number names that number, whatever its
      size: there is no check against 65535. */
  lemma {:induction false} SingleToken(n: nat)
    ensures TokenPorts(ShowNat(n)) == Ok({n})
  {
    var s := ShowNat(n);
    StripUnpadded(s);
    ParseShowNat(n);
  }

  /** A token `a-b` names the integers from `a` to `b` inclusive; when
      `a > b` it names none and is not an error. */
  lemma {:induction false} RangeToken(a: nat, b: nat)
    ensures TokenPorts(ShowNat(a) + "-" + ShowNat(b)) == Ok(Range(a, b + 1))
    ensures a > b ==> TokenPorts(ShowNat(a) + "-" + ShowNat(b)) == Ok({})
  {
    var sa, sb := ShowNat(a), ShowNat(b);
    assert !IsSpace(sb[|sb| - 1]);
    DashedTokenPorts(sa, sb);
    ParseShowNat(a);
    ParseShowNat(b);
  }

  /** How a token `before-after` whose start is written in digits is read. */
  lemma {:induction false} DashedTokenPorts(before: string, after: string)
    requires before != [] && AllDigits(before)
    requires after == [] || !IsSpace(after[|after| - 1])
    ensures '-' !in before && TokenPorts(before + "-" + after) == RangePorts(before, after)
  {
    assert '-' !in before by {
      assert forall k :: 0 <= k < |before| ==> before[k] != '-';
    }
    DashedText(before, after);
  }

  lemma {:induction false} DashedText(before: string, after: string)
    requires before != [] && !IsSpace(before[0]) && '-' !in before
    requires after == [] || !IsSpace(after[|after| - 1])
    ensures var s := before + "-" + after;
            Strip(s) == s && '-' in s && SplitOnce(s, '-') == Halves(before, after)
  {
    var s := before + "-" + after;
    assert s[0] == before[0];
    assert s[|s| - 1] == if after == [] then '-' else after[|after| - 1];
    StripUnpadded(s);
    assert s[|before|] == '-' && s[..|before|] == before && s[|before| + 1..] == after;
    SplitOnceAt(s, '-', |before|);
  }

  /** A start ending in one of the separators `\x1c` to `\x1f` is
      refused: `strip()` only trims the whole token, and `int()` does not
      skip those characters. */
  lemma {:induction false} SeparatorToken(a: nat, c: char, b: nat)
    requires '\U{1C}' <= c <= '\U{1F}'
    ensures TokenPorts(ShowNat(a) + [c] + "-" + ShowNat(b)) == Err(InvalidLiteral(ShowNat(a) + [c]))
  {
    var sa, sb := ShowNat(a), ShowNat(b);
    var before := sa + [c];
    assert before[0] == sa[0] && !IsSpace(sb[|sb| - 1]);
    assert '-' !in before by {
      assert forall k :: 0 <= k < |before| ==> before[k] != '-' by {
        assert forall k :: 0 <= k < |sa| ==> before[k] == sa[k];
      }
    }
    DashedText(before, sb);
    ParseSeparatorPadded(sa, c);
  }

  /** `parse_ports(str(a) + c + "-" + str(b))` fails on its start when `c`
      is a separator `\x1c` to `\x1f`. */
  lemma {:induction false} ParseSeparatorStart(a: nat, c: char, b: nat)
    requires '\U{1C}' <= c <= '\U{1F}'
    ensures ParsePorts(ShowNat(a) + [c] + "-" + ShowNat(b)) == Err(InvalidLiteral(ShowNat(a) + [c]))
  {
    var s := ShowNat(a) + [c] + "-" + ShowNat(b);
    SeparatorToken(a, c, b);
    assert ',' !in s by {
      assert ',' !in ShowNat(a) && ',' !in ShowNat(b);
    }
    OneTokenError(s);
  }

  /** A negative number is refused, since the text before its `-` is empty. */
  lemma {:induction false} NegativeToken(n: nat)
    requires n > 0
    ensures TokenPorts(ShowInt(-(n as int))) == Err(InvalidLiteral(""))
  {
    var s := ShowInt(-(n as int));
    var sn := ShowNat(n);
    assert s == "-" + sn;
    assert s[|s| - 1] == sn[|sn| - 1];
    StripUnpadded(s);
    SplitOnceAt(s, '-', 0);
    ParseBlank("");
  }

  /** A specification without commas is a single token. */
  lemma {:induction false} OneTokenSpec(spec: string)
    requires ',' !in spec
    ensures ParsePorts(spec) == match TokenPorts(spec)
                                case Err(e) => Err(e)
                                case Ok(c) => Ok(SortedSeq(c))
  {
    var ts := [spec];
    assert Split(spec, ',') == ts;
    assert ts[1..] == [];
    match TokenPorts(spec)
    case Err(e) =>
      assert Gather({}, ts) == Err(e);
    case Ok(c) =>
      assert Gather({}, ts) == Gather({} + c, []);
      assert {} + c == c;
  }

  /** A specification without commas fails with its one token's error. */
  lemma {:induction false} OneTokenError(spec: string)
    requires ',' !in spec
    ensures TokenPorts(spec).Err? ==> ParsePorts(spec) == Err(TokenPorts(spec).error)
  {
    OneTokenSpec(spec);
  }

  /** `parse_ports(str(n)) == [n]` for every natural number `n`, above
      65535 too. */
  lemma {:induction false} ParseSingle(n: nat)
    ensures ParsePorts(ShowNat(n)) == Ok([n])
  {
    SingleToken(n);
    OneTokenSpec(ShowNat(n));
    SortedUnique({n}, [n]);
  }

  /** `parse_ports("a-b")` lists `a, a+1, ..., b`, and nothing when `a > b`. */
  lemma {:induction false} ParseRange(a: nat, b: nat)
    ensures var r := ParsePorts(ShowNat(a) + "-" + ShowNat(b));
            && r.Ok?
            && |r.value| == (if a <= b then b - a + 1 else 0)
            && forall i :: 0 <= i < |r.value| ==> r.value[i] == a + i
  {
    RangeSpec(a, b);
    ListsConsecutive(ParsePorts(ShowNat(a) + "-" + ShowNat(b)), a, b);
  }

  lemma {:induction false} ListsConsecutive(r: Result<seq<int>, SpecError>, a: nat, b: nat)
    requires r == Ok(SortedSeq(Range(a, b + 1)))
    ensures r.Ok? && |r.value| == (if a <= b then b - a + 1 else 0)
    ensures forall i :: 0 <= i < |r.value| ==> r.value[i] == a + i
  {
    ConsecutiveListsRange(a, b + 1);
  }

  /** A one-range specification is the sorted listing of its range. */
  lemma {:induction false} RangeSpec(a: nat, b: nat)
    ensures ParsePorts(ShowNat(a) + "-" + ShowNat(b)) == Ok(SortedSeq(Range(a, b + 1)))
  {
    var sa, sb := ShowNat(a), ShowNat(b);
    var s := sa + "-" + sb;
    RangeToken(a, b);
    assert ',' !in s by {
      assert ',' !in sa && ',' !in sb;
    }
    OneTokenSpec(s);
  }

  /** `lo, lo+1, ..., hi-1` is the sorted listing of `range(lo, hi)`. */
  lemma {:induction false} ConsecutiveListsRange(lo: int, hi: int)
    ensures |SortedSeq(Range(lo, hi))| == (if lo < hi then hi - lo else 0)
    ensures forall i :: 0 <= i < |SortedSeq(Range(lo, hi))| ==> SortedSeq(Range(lo, hi))[i] == lo + i
  {
    var r := seq(if lo < hi then hi - lo else 0, i => lo + i);
    forall x ensures x in r <==> x in Range(lo, hi) {
      if lo <= x < hi {
        assert r[x - lo] == x;
      }
    }
    SortedUnique(Range(lo, hi), r);
  }

  lemma {:induction false} NamedAppend(p: seq<string>, q: seq<string>)
    ensures AllWellFormed(p + q) <==> AllWellFormed(p) && AllWellFormed(q)
    ensures forall x :: Named(p + q, x) <==> Named(p, x) || Named(q, x)
  {
    assert forall t :: t in p + q <==> t in p || t in q;
  }

  /** Whether gathering fails, and with which error, does not depend on
      what was gathered before. */
  lemma {:induction false} GatherErrorIgnoresAcc(acc1: set<int>, acc2: set<int>, tokens: seq<string>)
    ensures Gather(acc1, tokens).Err? ==> Gather(acc2, tokens) == Gather(acc1, tokens)
    decreases |tokens|
  {
    if Gather(acc1, tokens).Err? && TokenPorts(tokens[0]).Ok? {
      var c := TokenPorts(tokens[0]).value;
      GatherErrorIgnoresAcc(acc1 + c, acc2 + c, tokens[1..]);
    }
  }

  /** Joining two specifications with a comma unions the ports they name;
      the joined one fails with the error of the first part that fails. */
  lemma {:induction false} ParseJoined(a: string, b: string)
    ensures ParsePorts(a + "," + b).Ok? <==> ParsePorts(a).Ok? && ParsePorts(b).Ok?
    ensures ParsePorts(a + "," + b).Ok? ==>
              forall x :: x in ParsePorts(a + "," + b).value <==> x in ParsePorts(a).value || x in ParsePorts(b).value
    ensures ParsePorts(a).Err? ==> ParsePorts(a + "," + b) == ParsePorts(a)
    ensures ParsePorts(a).Ok? && ParsePorts(b).Err? ==> ParsePorts(a + "," + b) == ParsePorts(b)
  {
    var p, q := Split(a, ','), Split(b, ',');
    SplitAppend(a, b, ',');
    NamedAppend(p, q);
    GatherAppend({}, p, q);
    if Gather({}, p).Ok? && Gather({}, q).Err? {
      GatherErrorIgnoresAcc({}, Gather({}, p).value, q);
    }
  }

  /** A number followed by a `-` and nothing else has an empty end. */
  lemma {:induction false} MissingEndToken(n: nat)
    ensures TokenPorts(ShowNat(n) + "-") == Err(InvalidLiteral(""))
  {
    DashedTokenPorts(ShowNat(n), "");
    assert ShowNat(n) + "-" + "" == ShowNat(n) + "-";
    ParseShowNat(n);
    ParseBlank("");
  }

  /** `a-b-c` is cut at its first `-`; the end `b-c` is not a number. */
  lemma {:induction false} TwoDashToken(a: nat, b: nat, c: nat)
    ensures var end := ShowNat(b) + "-" + ShowNat(c);
            TokenPorts(ShowNat(a) + "-" + end) == Err(InvalidLiteral(end))
  {
    var end := ShowNat(b) + "-" + ShowNat(c);
    DashBetweenNumbers(b, c);
    DashedTokenPorts(ShowNat(a), end);
    ParseShowNat(a);
  }

  /** `"b-c"` is not a number, and it ends in a digit. */
  lemma {:induction false} DashBetweenNumbers(b: nat, c: nat)
    ensures var end := ShowNat(b) + "-" + ShowNat(c);
            ParseInt(end).None? && end != [] && IsDigit(end[|end| - 1])
  {
    var sb, sc := ShowNat(b), ShowNat(c);
    var end := sb + "-" + sc;
    assert end[0] == sb[0] && end[|end| - 1] == sc[|sc| - 1] && end[|sb|] == '-';
    ParseInnerDash(end, |sb|);
  }

  /** `parse_ports(str(n) + "-")` fails on the empty end. */
  lemma {:induction false} ParseMissingEnd(n: nat)
    ensures ParsePorts(ShowNat(n) + "-") == Err(InvalidLiteral(""))
  {
    var s := ShowNat(n) + "-";
    MissingEndToken(n);
    assert ',' !in s by {
      assert ',' !in ShowNat(n);
    }
    OneTokenError(s);
  }

  /** `parse_ports(str(-n))` fails on the empty start: negative ports are
      refused, though not by a range check. */
  lemma {:induction false} ParseNegative(n: nat)
    requires n > 0
    ensures ParsePorts(ShowInt(-(n as int))) == Err(InvalidLiteral(""))
  {
    var s := ShowInt(-(n as int));
    NegativeToken(n);
    assert ',' !in s by {
      assert s == "-" + ShowNat(n);
      assert ',' !in ShowNat(n);
    }
    OneTokenError(s);
  }

  /** `parse_ports("a-b-c")` fails on the end `"b-c"`. */
  lemma {:induction false} ParseTwoDashes(a: nat, b: nat, c: nat)
    ensures var end := ShowNat(b) + "-" + ShowNat(c);
            ParsePorts(ShowNat(a) + "-" + end) == Err(InvalidLiteral(end))
  {
    var end := ShowNat(b) + "-" + ShowNat(c);
    var s := ShowNat(a) + "-" + end;
    TwoDashToken(a, b, c);
    assert ',' !in s by {
      assert ',' !in ShowNat(a) && ',' !in ShowNat(b) && ',' !in ShowNat(c);
    }
    OneTokenError(s);
  }

  /** `"abc"` is not a number. */
  lemma MalformedWord()
    ensures ParsePorts("abc") == Err(InvalidLiteral("abc"))
  {
    StripUnpadded("abc");
    assert ParseInt("abc") == None;
    assert '-' !in "abc";
    OneTokenError("abc");
  }

  /** `"5-"`: a range without an end. */
  lemma MalformedMissingEnd()
    ensures ParsePorts("5-") == Err(InvalidLiteral(""))
  {
    ParseMissingEnd(5);
    SpellMissingEnd();
  }

  /** `"-5"`: a negative number reads as a range without a start. */
  lemma MalformedNegative()
    ensures ParsePorts("-5") == Err(InvalidLiteral(""))
  {
    ParseNegative(5);
    SpellNegative();
  }

  /** `"1-2-3"`: only the first `-` separates, so the end is `"2-3"`. */
  lemma MalformedTwoDashes()
    ensures ParsePorts("1-2-3") == Err(InvalidLiteral("2-3"))
  {
    ParseTwoDashes(1, 2, 3);
    SpellTwoDashes();
  }

  /** `"1\x1c-3"`: the start `"1\x1c"` is not stripped, and `int()` refuses it. */
  lemma MalformedSeparator()
    ensures ParsePorts("1\U{1C}-3") == Err(InvalidLiteral("1\U{1C}"))
  {
    ParseSeparatorStart(1, '\U{1C}', 3);
    SpellSeparator();
  }

  /** The numbers `ns` written out and separated by commas, as a user
      types a port list. */
  function Spell(ns: seq<nat>): string
    requires |ns| > 0
  {
    if |ns| == 1 then ShowNat(ns[0]) else ShowNat(ns[0]) + "," + Spell(ns[1..])
  }

  lemma {:induction false} NumberThenSpec(n: nat, b: string)
    ensures ParsePorts(ShowNat(n) + "," + b).Ok? <==> ParsePorts(b).Ok?
    ensures ParsePorts(b).Ok? ==>
              forall x :: x in ParsePorts(ShowNat(n) + "," + b).value <==> x == n || x in ParsePorts(b).value
  {
    ParseSingle(n);
    ParseJoined(ShowNat(n), b);
  }

  /** A list of numbers names exactly the numbers listed. */
  lemma {:induction false} ParseNumbers(ns: seq<nat>)
    requires |ns| > 0
    ensures ParsePorts(Spell(ns)).Ok?
    ensures forall x :: x in ParsePorts(Spell(ns)).value <==> x in ns
  {
    if |ns| == 1 {
      ParseSingle(ns[0]);
    } else {
      ParseNumbers(ns[1..]);
      NumberThenSpec(ns[0], Spell(ns[1..]));
      HeadAndTail(ns);
    }
  }

  /** A list of numbers parses to the ascending listing of its distinct
      members, whatever order and repetitions it was typed with. */
  lemma {:induction false} ParseSorted(ns: seq<nat>, sorted: seq<int>)
    requires |ns| > 0 && StrictlyAscending(sorted)
    requires forall x :: x in sorted <==> x in ns
    ensures ParsePorts(Spell(ns)) == Ok(sorted)
  {
    ParseNumbers(ns);
    AscendingUnique(ParsePorts(Spell(ns)).value, sorted);
  }

  /** A sorted comma-separated list comes back as it was typed. */
  lemma ExampleList()
    ensures ParsePorts("22,80,443") == Ok([22, 80, 443])
  {
    ParseSorted([22, 80, 443], [22, 80, 443]);
    SpellList();
  }

  /** Duplicates are merged and the result is sorted. */
  lemma ExampleMerged()
    ensures ParsePorts("80,22,80") == Ok([22, 80])
  {
    ParseSorted([80, 22, 80], [22, 80]);
    SpellMerged();
  }

  /** A range lists every port from its start to its end. */
  lemma ExampleRange()
    ensures ParsePorts("20-22") == Ok([20, 21, 22])
  {
    ParseRange(20, 22);
    ListingOfThree(ParsePorts(ShowNat(20) + "-" + ShowNat(22)).value, 20);
    SpellRange();
  }

  /** Numbers and a range mix: the ports are merged into one ascending
      list. */
  lemma ExampleMixed()
    ensures ParsePorts("80,22,80,1-2") == Ok([1, 2, 22, 80])
  {
    ExampleMerged();
    ExampleShortRange();
    MixedParts("80,22,80", "1-2");
    SpellMixed();
  }

  lemma {:induction false} MixedParts(a: string, b: string)
    ensures ParsePorts(a) == Ok([22, 80]) && ParsePorts(b) == Ok([1, 2]) ==>
              ParsePorts(a + "," + b) == Ok([1, 2, 22, 80])
  {
    MixedListing();
    JoinedListing(a, b, [22, 80], [1, 2], [1, 2, 22, 80]);
  }

  lemma MixedListing()
    ensures StrictlyAscending([1, 2, 22, 80])
    ensures forall x :: x in [1, 2, 22, 80] <==> x in [22, 80] || x in [1, 2]
  {
  }

  lemma ExampleShortRange()
    ensures ParsePorts("1-2") == Ok([1, 2])
  {
    ParseRange(1, 2);
    ListingOfTwo(ParsePorts(ShowNat(1) + "-" + ShowNat(2)).value, 1);
    SpellShortRange();
  }

  /** `a,b` lists the ascending union of what `a` and `b` list. */
  lemma {:induction false} JoinedListing(a: string, b: string, la: seq<int>, lb: seq<int>, l: seq<int>)
    requires StrictlyAscending(l) && forall x :: x in l <==> x in la || x in lb
    ensures ParsePorts(a) == Ok(la) && ParsePorts(b) == Ok(lb) ==> ParsePorts(a + "," + b) == Ok(l)
  {
    if ParsePorts(a) == Ok(la) && ParsePorts(b) == Ok(lb) {
      ParseJoined(a, b);
      AscendingUnique(ParsePorts(a + "," + b).value, l);
    }
  }

  /** The empty specification names no port. */
  lemma ExampleEmpty()
    ensures ParsePorts("") == Ok([])
  {
    OneTokenSpec("");
    SortedUnique({}, []);
  }

  /** The literals of the examples, spelled from their numbers. */
  lemma SpellMissingEnd()
    ensures ShowNat(5) + "-" == "5-"
  {
  }

  lemma SpellNegative()
    ensures ShowInt(-5) == "-5"
  {
  }

  lemma SpellTwoDashes()
    ensures ShowNat(2) + "-" + ShowNat(3) == "2-3"
    ensures ShowNat(1) + "-" + (ShowNat(2) + "-" + ShowNat(3)) == "1-2-3"
  {
  }

  lemma SpellSeparator()
    ensures ShowNat(1) + ['\U{1C}'] == "1\U{1C}"
    ensures ShowNat(1) + ['\U{1C}'] + "-" + ShowNat(3) == "1\U{1C}-3"
  {
  }

  lemma SpellShortRange()
    ensures ShowNat(1) + "-" + ShowNat(2) == "1-2"
  {
  }

  lemma SpellMixed()
    ensures "80,22,80" + "," + "1-2" == "80,22,80,1-2"
  {
  }

  lemma SpellList()
    ensures Spell([22, 80, 443]) == "22,80,443"
  {
  }

  lemma SpellMerged()
    ensures Spell([80, 22, 80]) == "80,22,80"
  {
  }

  lemma SpellRange()
    ensures ShowNat(20) + "-" + ShowNat(22) == "20-22"
  {
  }

  lemma {:induction false} ListingOfTwo(v: seq<int>, a: int)
    requires |v| == 2 && forall i :: 0 <= i < 2 ==> v[i] == a + i
    ensures v == [a, a + 1]
  {
    assert v[0] == a && v[1] == a + 1;
  }

  lemma {:induction false} ListingOfThree(v: seq<int>, a: int)
    requires |v| == 3 && forall i :: 0 <= i < 3 ==> v[i] == a + i
    ensures v == [a, a + 1, a + 2]
  {
    assert v[0] == a && v[1] == a + 1 && v[2] == a + 2;
  }
}

=== FILE: report.dfy ===
/**
  What `pretty_print` and `write_csv` produce from a scan result, as
  sequences of lines and of rows. The elapsed time arrives already
  formatted (`f"{elapsed:.2f}"` or `f"{elapsed:.4f}"`).
 */
module Report {
  import opened Fallible
  import opened Text
  import opened Decimal
  import opened Ordered
  import opened CommonPorts
  import opened Scanner

  /** `sorted(open_ports)`: the ports the scan found open, ascending. */
  function OpenPorts(results: map<int, PortInfo>): (ps: seq<int>)
    ensures StrictlyAscending(ps)
    ensures forall p :: p in ps <==> p in results && results[p].isOpen
  {
    SortedSeq(set p | p in results && results[p].isOpen)
  }

  /** `f" ({svc})" if svc else ""`. */
  function ServiceSuffix(svc: string): (s: string)
    ensures s == "" <==> svc == ""
  {
    if svc != "" then " (" + svc + ")" else ""
  }

  const Bullet: string := "   - "
  const NoOpenPortsLine: string := "  No open ports found (in scanned range)."
  const OpenPortsLine: string := "  Open ports:"

  /** The heading `pretty_print` prints first; it is never read as a
      port line, whatever the host and elapsed time. */
  function Heading(host: string, elapsed: string): (h: string)
    ensures ReadPortLine(h) == None
  {
    var h := "Scan results for " + host + " (elapsed " + elapsed + "s):";
    assert h[3] == 'n';
    NotPortLine(h);
    h
  }

  /** The line printed for an open port; it reads back as exactly that
      port and service name. */
  function PortLine(port: int, svc: string): (line: string)
    ensures ReadPortLine(line) == Some((port, svc))
  {
    ReadPortLineInverse(port, svc);
    Bullet + (ShowInt(port) + ServiceSuffix(svc))
  }

  /** One port line for each of `ps`, in the order of `ps`. */
  function PortLines(ps: seq<int>, results: map<int, PortInfo>): (lines: seq<string>)
    requires forall p :: p in ps ==> p in results
    ensures |lines| == |ps|
    ensures forall i :: 0 <= i < |ps| ==> lines[i] == PortLine(ps[i], results[ps[i]].serviceGuess)
  {
    if ps == [] then [] else [PortLine(ps[0], results[ps[0]].serviceGuess)] + PortLines(ps[1..], results)
  }

  /** The lines `pretty_print` prints; the leading `\n` of its first
      `print` shows as an empty first line. */
  function PrettyLines(results: map<int, PortInfo>, host: string, elapsed: string): (lines: seq<string>)
    ensures |lines| >= 3 && lines[0] == "" && lines[1] == Heading(host, elapsed)
  {
    var open := OpenPorts(results);
    ["", Heading(host, elapsed)]
    + if open == [] then [NoOpenPortsLine] else [OpenPortsLine] + PortLines(open, results)
  }

  /** Reads a port line back into the port and the service guess it shows;
      `None` for any other line. */
  function ReadPortLine(line: string): Option<(int, string)> {
    if |line| < |Bullet| || line[..|Bullet|] != Bullet then None
    else ReadPortText(line[|Bullet|..])
  }

  /** A port number, optionally followed by a space and a parenthesised
      service name. */
  function ReadPortText(body: string): Option<(int, string)> {
    if ' ' !in body then
      match ParseInt(body)
      case None => None
      case Some(n) => Some((n, ""))
    else
      var h := SplitOnce(body, ' ');
      match ParseInt(h.before)
      case None => None
      case Some(n) =>
        match ReadParenthesised(h.after)
        case None => None
        case Some(svc) => Some((n, svc))
  }

  /** The text inside a non-empty `(...)`. */
  function ReadParenthesised(paren: string): Option<string> {
    if |paren| > 2 && paren[0] == '(' && paren[|paren| - 1] == ')'
    then Some(paren[1..|paren| - 1])
    else None
  }

  /** The readings `read` finds in `lines`, in order, skipping the lines
      it does not read. */
  function Readings<T>(read: string -> Option<T>, lines: seq<string>): seq<T> {
    if lines == [] then []
    else
      match read(lines[0])
      case None => Readings(read, lines[1..])
      case Some(e) => [e] + Readings(read, lines[1..])
  }

  /** What a reader of the output recovers: the port and guess of every
      port line, in order. */
  function Listed(lines: seq<string>): seq<(int, string)> {
    Readings(ReadPortLine, lines)
  }

  /** A port line shows its port and its guess unambiguously. */
  lemma {:induction false} ReadPortLineInverse(port: int, svc: string)
    ensures ReadPortLine(Bullet + (ShowInt(port) + ServiceSuffix(svc))) == Some((port, svc))
  {
    ReadBulleted(ShowInt(port) + ServiceSuffix(svc));
    ReadPortTextInverse(port, svc);
  }

  /** Past the bullet, a line is read as port text. */
  lemma {:induction false} ReadBulleted(text: string)
    ensures ReadPortLine(Bullet + text) == ReadPortText(text)
  {
    var line := Bullet + text;
    assert line[..|Bullet|] == Bullet && line[|Bullet|..] == text;
  }

  lemma {:induction false} ReadPortTextInverse(port: int, svc: string)
    ensures ReadPortText(ShowInt(port) + ServiceSuffix(svc)) == Some((port, svc))
  {
    if svc == "" {
      ReadBarePort(port);
    } else {
      ReadServicePort(port, svc);
    }
  }

  lemma {:induction false} ReadBarePort(port: int)
    ensures ReadPortText(ShowInt(port) + ServiceSuffix("")) == Some((port, ""))
  {
    var n := ShowInt(port);
    assert n + ServiceSuffix("") == n;
    ShowIntHasNoSpace(port);
    ParseShowInt(port);
  }

  lemma {:induction false} ReadServicePort(port: int, svc: string)
    requires svc != ""
    ensures ReadPortText(ShowInt(port) + ServiceSuffix(svc)) == Some((port, svc))
  {
    SuffixParts(svc);
    ReadNamedPort(port, ServiceSuffix(svc));
    ReadParenthesisedInverse(svc);
  }

  lemma {:induction false} SuffixParts(svc: string)
    requires svc != ""
    ensures ServiceSuffix(svc) != [] && ServiceSuffix(svc)[0] == ' '
    ensures ServiceSuffix(svc)[1..] == "(" + svc + ")"
  {
  }

  lemma {:induction false} ReadParenthesisedInverse(svc: string)
    requires svc != ""
    ensures ReadParenthesised("(" + svc + ")") == Some(svc)
  {
    var paren := "(" + svc + ")";
    assert paren[1..|paren| - 1] == svc;
  }

  lemma {:induction false} ReadNamedPort(port: int, tail: string)
    requires tail != [] && tail[0] == ' '
    ensures ReadPortText(ShowInt(port) + tail) == match ReadParenthesised(tail[1..])
                                                 case None => None
                                                 case Some(svc) => Some((port, svc))
  {
    var n := ShowInt(port);
    ShowIntHasNoSpace(port);
    ParseShowInt(port);
    var body := n + tail;
    assert body[|n|] == ' ' && body[..|n|] == n && body[|n| + 1..] == tail[1..];
    SplitOnceAt(body, ' ', |n|);
  }

  lemma {:induction false} ReadingsAppend<T>(read: string -> Option<T>, a: seq<string>, b: seq<string>)
    ensures Readings(read, a + b) == Readings(read, a) + Readings(read, b)
    decreases |a|
  {
    if a != [] {
      assert a == [a[0]] + a[1..];
      assert a + b == [a[0]] + (a[1..] + b);
      ReadingsCons(read, a[0], a[1..]);
      ReadingsCons(read, a[0], a[1..] + b);
      ReadingsAppend(read, a[1..], b);
    } else {
      assert a + b == b;
    }
  }

  lemma {:induction false} ReadingsCons<T>(read: string -> Option<T>, line: string, rest: seq<string>)
    ensures read(line).None? ==> Readings(read, [line] + rest) == Readings(read, rest)
    ensures read(line).Some? ==> Readings(read, [line] + rest) == [read(line).value] + Readings(read, rest)
  {
    assert ([line] + rest)[0] == line && ([line] + rest)[1..] == rest;
  }

  lemma {:induction false} ListedPortLines(ps: seq<int>, results: map<int, PortInfo>)
    requires forall p :: p in ps ==> p in results
    ensures var l := Listed(PortLines(ps, results));
            |l| == |ps| && forall i :: 0 <= i < |ps| ==> l[i] == (ps[i], results[ps[i]].serviceGuess)
  {
    var lines := PortLines(ps, results);
    var expected := seq(|ps|, i requires 0 <= i < |ps| => (ps[i], results[ps[i]].serviceGuess));
    assert forall i :: 0 <= i < |lines| ==> ReadPortLine(lines[i]) == Some(expected[i]);
    ReadingsAll(ReadPortLine, lines, expected);
  }

  /** Lines that each read as the matching item of `expected` read as `expected`. */
  lemma {:induction false} ReadingsAll<T>(read: string -> Option<T>, lines: seq<string>, expected: seq<T>)
    requires |lines| == |expected|
    requires forall i :: 0 <= i < |lines| ==> read(lines[i]) == Some(expected[i])
    ensures Readings(read, lines) == expected
    decreases |lines|
  {
    if lines != [] {
      assert read(lines[0]) == Some(expected[0]);
      ReadingsAll(read, lines[1..], expected[1..]);
      assert expected == [expected[0]] + expected[1..];
    }
  }

  /** None of the fixed lines reads as a port line. */
  lemma {:induction false} ReadingsNone<T>(read: string -> Option<T>, lines: seq<string>)
    requires forall i :: 0 <= i < |lines| ==> read(lines[i]).None?
    ensures Readings(read, lines) == []
    decreases |lines|
  {
    if lines != [] {
      assert read(lines[0]).None?;
      ReadingsNone(read, lines[1..]);
    }
  }

  /** The lines printed before the port lines list nothing. */
  lemma {:induction false} HeadingListsNothing(host: string, elapsed: string)
    ensures Listed(["", Heading(host, elapsed)]) == []
  {
    HeaderNotRead(host, elapsed);
    ReadingsNoneOfTwo(ReadPortLine, "", Heading(host, elapsed));
  }

  /** Neither the blank first line nor the heading is a port line. */
  lemma {:induction false} HeaderNotRead(host: string, elapsed: string)
    ensures ReadPortLine("") == None
    ensures ReadPortLine(Heading(host, elapsed)) == None
  {
    NotPortLine("");
  }

  lemma OpenPortsLineNotRead()
    ensures ReadPortLine(OpenPortsLine) == None
  {
    NotPortLine(OpenPortsLine);
  }

  lemma NoOpenPortsLineNotRead()
    ensures ReadPortLine(NoOpenPortsLine) == None
  {
    NotPortLine(NoOpenPortsLine);
  }

  lemma {:induction false} ReadingsNoneOfTwo<T>(read: string -> Option<T>, a: string, b: string)
    requires read(a).None? && read(b).None?
    ensures Readings(read, [a, b]) == []
  {
    ReadingsNone(read, [a, b]);
  }

  lemma {:induction false} ReadingsNoneOfThree<T>(read: string -> Option<T>, a: string, b: string, c: string)
    requires read(a).None? && read(b).None? && read(c).None?
    ensures Readings(read, [a, b] + [c]) == []
  {
    var lines := [a, b] + [c];
    assert lines[0] == a && lines[1] == b && lines[2] == c;
    ReadingsNone(read, lines);
  }

  lemma {:induction false} ReadingsSkipThree<T>(read: string -> Option<T>, a: string, b: string, c: string,
                                                rest: seq<string>)
    requires read(a).None? && read(b).None? && read(c).None?
    ensures Readings(read, [a, b] + ([c] + rest)) == Readings(read, rest)
  {
    ReadingsNoneOfTwo(read, a, b);
    ReadingsAppend(read, [a, b], [c] + rest);
    ReadingsCons(read, c, rest);
  }

  /** A line that is short or has no `-` at the bullet's place is not a port line. */
  lemma {:induction false} NotPortLine(line: string)
    requires |line| < |Bullet| || line[3] != '-'
    ensures ReadPortLine(line) == None
  {
    if |line| >= |Bullet| {
      assert line[..|Bullet|][3] != Bullet[3];
    }
  }

  /** Reading the printed report back gives the open ports, ascending,
      each with its service guess, and nothing else. */
  lemma {:induction false} PrettyListsOpenPorts(results: map<int, PortInfo>, host: string, elapsed: string)
    ensures var l := Listed(PrettyLines(results, host, elapsed));
            var open := OpenPorts(results);
            |l| == |open| && forall i :: 0 <= i < |l| ==> l[i] == (open[i], results[open[i]].serviceGuess)
  {
    if OpenPorts(results) == [] {
      PrettyNoneOpen(results, host, elapsed);
    } else {
      PrettySomeOpen(results, host, elapsed);
      ListedPortLines(OpenPorts(results), results);
    }
  }

  lemma {:induction false} PrettyNoneOpen(results: map<int, PortInfo>, host: string, elapsed: string)
    requires OpenPorts(results) == []
    ensures Listed(PrettyLines(results, host, elapsed)) == []
  {
    assert PrettyLines(results, host, elapsed) == ["", Heading(host, elapsed)] + [NoOpenPortsLine];
    NoOpenPortsLineNotRead();
    ListedNoOpen(host, elapsed, NoOpenPortsLine);
  }

  lemma {:induction false} ListedNoOpen(host: string, elapsed: string, last: string)
    requires ReadPortLine(last) == None
    ensures Listed(["", Heading(host, elapsed)] + [last]) == []
  {
    HeaderNotRead(host, elapsed);
    ReadingsNoneOfThree(ReadPortLine, "", Heading(host, elapsed), last);
  }

  lemma {:induction false} PrettySomeOpen(results: map<int, PortInfo>, host: string, elapsed: string)
    requires OpenPorts(results) != []
    ensures Listed(PrettyLines(results, host, elapsed)) == Listed(PortLines(OpenPorts(results), results))
  {
    PrettyShape(results, host, elapsed);
    ListedAfterHeader(PortLines(OpenPorts(results), results), host, elapsed);
  }

  lemma {:induction false} PrettyShape(results: map<int, PortInfo>, host: string, elapsed: string)
    requires OpenPorts(results) != []
    ensures PrettyLines(results, host, elapsed)
            == ["", Heading(host, elapsed)] + ([OpenPortsLine] + PortLines(OpenPorts(results), results))
  {
  }

  lemma {:induction false} ListedAfterHeader(rest: seq<string>, host: string, elapsed: string)
    ensures Listed(["", Heading(host, elapsed)] + ([OpenPortsLine] + rest)) == Listed(rest)
  {
    HeaderNotRead(host, elapsed);
    OpenPortsLineNotRead();
    ReadingsSkipThree(ReadPortLine, "", Heading(host, elapsed), OpenPortsLine, rest);
  }

  /** A port is listed exactly when the scan found it open, the listing is
      ascending, and an open port is shown with its guess. */
  lemma {:induction false} ListedIffOpen(results: map<int, PortInfo>, host: string, elapsed: string)
    ensures var l := Listed(PrettyLines(results, host, elapsed));
            && (forall p :: (exists i :: 0 <= i < |l| && l[i].0 == p) <==> p in results && results[p].isOpen)
            && (forall i, j :: 0 <= i < j < |l| ==> l[i].0 < l[j].0)
            && (forall i :: 0 <= i < |l| ==> l[i].0 in results && l[i].1 == results[l[i].0].serviceGuess)
  {
    PrettyListsOpenPorts(results, host, elapsed);
    assert forall i :: 0 <= i < |OpenPorts(results)| ==> OpenPorts(results)[i] in OpenPorts(results);
    EntriesOfOpen(Listed(PrettyLines(results, host, elapsed)), OpenPorts(results), results);
  }

  lemma {:induction false} EntriesOfOpen(l: seq<(int, string)>, open: seq<int>, results: map<int, PortInfo>)
    requires StrictlyAscending(open)
    requires forall p :: p in open <==> p in results && results[p].isOpen
    requires |l| == |open|
    requires forall i :: 0 <= i < |l| ==> open[i] in results && l[i] == (open[i], results[open[i]].serviceGuess)
    ensures forall p :: (exists i :: 0 <= i < |l| && l[i].0 == p) <==> p in results && results[p].isOpen
    ensures forall i, j :: 0 <= i < j < |l| ==> l[i].0 < l[j].0
    ensures forall i :: 0 <= i < |l| ==> l[i].0 in results && l[i].1 == results[l[i].0].serviceGuess
  {
    forall p
      ensures (exists i :: 0 <= i < |l| && l[i].0 == p) <==> p in results && results[p].isOpen
    {
      if p in results && results[p].isOpen {
        assert p in open;
        var i :| 0 <= i < |open| && open[i] == p;
        assert l[i].0 == p;
      }
      if exists i :: 0 <= i < |l| && l[i].0 == p {
        var i :| 0 <= i < |l| && l[i].0 == p;
        assert open[i] in open;
      }
    }
    forall i | 0 <= i < |l|
      ensures l[i].0 in results && l[i].1 == results[l[i].0].serviceGuess
    {
      assert open[i] in open;
    }
  }

  /** The "no open ports" line is printed exactly when no port is open. */
  lemma {:induction false} NoOpenLineIff(results: map<int, PortInfo>, host: string, elapsed: string)
    ensures NoOpenPortsLine in PrettyLines(results, host, elapsed)
            <==> forall p :: p in results ==> !results[p].isOpen
  {
    if OpenPorts(results) == [] {
      NoneOpenShown(results, host, elapsed);
    } else {
      SomeOpenNotShown(results, host, elapsed);
    }
  }

  lemma {:induction false} NoneOpenShown(results: map<int, PortInfo>, host: string, elapsed: string)
    requires OpenPorts(results) == []
    ensures NoOpenPortsLine in PrettyLines(results, host, elapsed)
    ensures forall p :: p in results ==> !results[p].isOpen
  {
    assert PrettyLines(results, host, elapsed)[2] == NoOpenPortsLine;
    forall p | p in results
      ensures !results[p].isOpen
    {
      assert p !in OpenPorts(results);
    }
  }

  lemma {:induction false} SomeOpenNotShown(results: map<int, PortInfo>, host: string, elapsed: string)
    requires OpenPorts(results) != []
    ensures NoOpenPortsLine !in PrettyLines(results, host, elapsed)
    ensures exists p :: p in results && results[p].isOpen
  {
    var open := OpenPorts(results);
    assert open[0] in open;
    PrettyShape(results, host, elapsed);
    var pl := PortLines(open, results);
    forall i | 0 <= i < |pl|
      ensures |pl[i]| > 2 && pl[i][2] == ' '
    {
      PortLineIndent(open[i], results[open[i]].serviceGuess);
    }
    NoOpenLineAbsent(host, elapsed, pl);
  }

  /** A port line starts with three spaces, one more than any status
      line's indent. */
  lemma {:induction false} PortLineIndent(port: int, svc: string)
    ensures |PortLine(port, svc)| > 3 && PortLine(port, svc)[..3] == "   "
    ensures PortLine(port, svc)[2] == ' '
  {
    BulletIndent(ShowInt(port) + ServiceSuffix(svc));
  }

  lemma {:induction false} BulletIndent(t: string)
    ensures |Bullet + t| > 3 && (Bullet + t)[..3] == "   " && (Bullet + t)[2] == ' '
  {
    assert (Bullet + t)[..3] == Bullet[..3];
  }

  lemma {:induction false} NoOpenLineAbsent(host: string, elapsed: string, pl: seq<string>)
    requires forall i :: 0 <= i < |pl| ==> |pl[i]| > 2 && pl[i][2] == ' '
    ensures NoOpenPortsLine !in ["", Heading(host, elapsed)] + ([OpenPortsLine] + pl)
  {
    var lines := ["", Heading(host, elapsed)] + ([OpenPortsLine] + pl);
    forall k | 0 <= k < |lines|
      ensures lines[k] != NoOpenPortsLine
    {
      if k == 0 {
      } else if k == 1 {
        assert lines[k] == Heading(host, elapsed);
        assert lines[k][0] == 'S' != NoOpenPortsLine[0];
      } else if k == 2 {
        assert lines[k][2] != NoOpenPortsLine[2];
      } else {
        assert lines[k] == pl[k - 3];
      }
    }
  }

  /** An open port the table knows is printed with its service name in
      parentheses. */
  lemma {:induction false} KnownServiceShown(probe: int -> bool, port: int)
    requires port in Table
    ensures PortLine(port, Expected(probe, port).serviceGuess) == Bullet + ShowInt(port) + " (" + Table[port] + ")"
  {
    assert Expected(probe, port).serviceGuess == Table[port];
    TableValuesNonEmpty();
    NamedLineLayout(ShowInt(port), Table[port]);
  }

  lemma {:induction false} NamedLineLayout(n: string, svc: string)
    requires svc != ""
    ensures Bullet + (n + ServiceSuffix(svc)) == Bullet + n + " (" + svc + ")"
  {
  }

  /** `str(b)` for a boolean. */
  function ShowBool(b: bool): (s: string)
    ensures s == "True" || s == "False"
    ensures s == "True" <==> b
  {
    if b then "True" else "False"
  }

  const CsvHeader: seq<seq<string>> := [["port", "open", "service_guess"]]

  /** The row written for one port; it reads back as exactly that port
      and entry. */
  function DataRow(port: int, info: PortInfo): (row: seq<string>)
    ensures ReadRow(row) == Some((port, info))
  {
    ReadDataRow(port, info);
    [ShowInt(port), ShowBool(info.isOpen), info.serviceGuess]
  }

  function DataRows(ps: seq<int>, results: map<int, PortInfo>): (rows: seq<seq<string>>)
    requires forall p :: p in ps ==> p in results
    ensures |rows| == |ps|
    ensures forall i :: 0 <= i < |ps| ==> rows[i] == DataRow(ps[i], results[ps[i]])
  {
    if ps == [] then [] else [DataRow(ps[0], results[ps[0]])] + DataRows(ps[1..], results)
  }

  /** The host row, the elapsed-time row, a blank row and the column names. */
  function Preamble(host: string, elapsed: string): (rows: seq<seq<string>>)
    ensures |rows| == 4
    ensures forall i :: 0 <= i < |rows| ==> ReadRow(rows[i]).None?
  {
    var rows := [["host", host], ["elapsed_seconds", elapsed], []] + CsvHeader;
    forall i | 0 <= i < |rows|
      ensures ReadRow(rows[i]).None?
    {
      if i < 3 {
        assert |rows[i]| != 3;
      } else {
        assert rows[i][1] == "open";
      }
    }
    rows
  }

  /** The rows `write_csv` writes: host, elapsed time, a blank row, the
      column names, then one row per scanned port in ascending order. */
  function CsvRows(host: string, results: map<int, PortInfo>, elapsed: string): (rows: seq<seq<string>>)
    ensures |rows| == 4 + |results|
  {
    Preamble(host, elapsed) + DataRows(SortedSeq(results.Keys), results)
  }

  /** What a CSV export holds. */
  datatype Export = Export(host: string, elapsed: string, results: map<int, PortInfo>)

  /** Reads one data row back. */
  function ReadRow(row: seq<string>): Option<(int, PortInfo)> {
    if |row| != 3 || (row[1] != "True" && row[1] != "False") then None
    else
      match ParseInt(row[0])
      case None => None
      case Some(p) => Some((p, PortInfo(row[1] == "True", row[2])))
  }

  /** Reads the data rows back into a result map; `None` if a row is not a
      data row. */
  function ReadRows(rows: seq<seq<string>>): Option<map<int, PortInfo>> {
    if rows == [] then Some(map[])
    else
      match ReadRow(rows[0])
      case None => None
      case Some(entry) =>
        match ReadRows(rows[1..])
        case None => None
        case Some(m) => Some(m[entry.0 := entry.1])
  }

  /** Reads a whole export back; `None` if its first four rows are not
      the preamble `write_csv` writes. */
  function ReadCsv(rows: seq<seq<string>>): Option<Export> {
    if |rows| < 4 || |rows[0]| != 2 || rows[0][0] != "host"
       || |rows[1]| != 2 || rows[1][0] != "elapsed_seconds" || rows[2] != [] || rows[3..4] != CsvHeader
    then None
    else
      match ReadRows(rows[4..])
      case None => None
      case Some(m) => Some(Export(rows[0][1], rows[1][1], m))
  }

  lemma {:induction false} ReadDataRow(port: int, info: PortInfo)
    ensures ReadRow([ShowInt(port), ShowBool(info.isOpen), info.serviceGuess]) == Some((port, info))
  {
    ParseShowInt(port);
  }

  lemma {:induction false} ReadDataRows(ps: seq<int>, results: map<int, PortInfo>)
    requires forall p :: p in ps ==> p in results
    ensures ReadRows(DataRows(ps, results)) == Some(map p | p in ps :: results[p])
    decreases |ps|
  {
    if ps != [] {
      var row := DataRow(ps[0], results[ps[0]]);
      var rest := DataRows(ps[1..], results);
      assert DataRows(ps, results) == [row] + rest;
      ReadDataRow(ps[0], results[ps[0]]);
      ReadDataRows(ps[1..], results);
      ReadRowsCons(row, rest);
      assert ps[0] in ps;
      MapCons(ps, results);
    }
  }

  lemma {:induction false} ReadRowsCons(row: seq<string>, rest: seq<seq<string>>)
    ensures ReadRows([row] + rest) == match ReadRow(row)
                                      case None => None
                                      case Some(entry) =>
                                        match ReadRows(rest)
                                        case None => None
                                        case Some(m) => Some(m[entry.0 := entry.1])
  {
    assert ([row] + rest)[0] == row && ([row] + rest)[1..] == rest;
  }

  lemma {:induction false} MapCons(ps: seq<int>, results: map<int, PortInfo>)
    requires ps != [] && ps[0] in results && forall p :: p in ps[1..] ==> p in results
    ensures (map p | p in ps[1..] :: results[p])[ps[0] := results[ps[0]]] == map p | p in ps :: results[p]
  {
    assert forall p :: p in ps <==> p == ps[0] || p in ps[1..] by {
      assert ps == [ps[0]] + ps[1..];
    }
  }

  /** Reading the CSV export back gives the host, the elapsed time and
      the whole result map. */
  lemma {:induction false} CsvRoundTrip(host: string, results: map<int, PortInfo>, elapsed: string)
    ensures ReadCsv(CsvRows(host, results, elapsed)) == Some(Export(host, elapsed, results))
  {
    var ps := SortedSeq(results.Keys);
    var data := DataRows(ps, results);
    CsvShape(host, results, elapsed);
    ReadDataRows(ps, results);
    SortedKeysCover(results);
    ReadPreamble(host, elapsed, data);
  }

  lemma {:induction false} SortedKeysCover(results: map<int, PortInfo>)
    ensures (map p | p in SortedSeq(results.Keys) :: results[p]) == results
  {
  }

  lemma {:induction false} CsvShape(host: string, results: map<int, PortInfo>, elapsed: string)
    ensures CsvRows(host, results, elapsed) == Preamble(host, elapsed) + DataRows(SortedSeq(results.Keys), results)
  {
  }

  lemma {:induction false} ReadPreamble(host: string, elapsed: string, data: seq<seq<string>>)
    ensures ReadCsv(Preamble(host, elapsed) + data) == match ReadRows(data)
                                                     case None => None
                                                     case Some(m) => Some(Export(host, elapsed, m))
  {
    var rows := Preamble(host, elapsed) + data;
    assert rows[0] == ["host", host] && rows[1] == ["elapsed_seconds", elapsed] && rows[2] == [];
    assert rows[3..4] == CsvHeader && rows[4..] == data;
  }

  lemma {:induction false} ReadEachDataRow(ps: seq<int>, results: map<int, PortInfo>)
    requires forall p :: p in ps ==> p in results
    ensures forall i :: 0 <= i < |ps| ==> ReadRow(DataRows(ps, results)[i]) == Some((ps[i], results[ps[i]]))
  {
    forall i | 0 <= i < |ps|
      ensures ReadRow(DataRows(ps, results)[i]) == Some((ps[i], results[ps[i]]))
    {
      ReadDataRow(ps[i], results[ps[i]]);
    }
  }

  /** The data rows name every scanned port once, in ascending order, each
      with its own entry. */
  lemma {:induction false} CsvRowsAscending(host: string, results: map<int, PortInfo>, elapsed: string)
    ensures var rows := CsvRows(host, results, elapsed);
            && (forall i :: 4 <= i < |rows| ==>
                  ReadRow(rows[i]).Some? && ReadRow(rows[i]).value.0 in results
                  && ReadRow(rows[i]).value.1 == results[ReadRow(rows[i]).value.0])
            && (forall i, j :: 4 <= i < j < |rows| ==>
                  ReadRow(rows[i]).Some? && ReadRow(rows[j]).Some?
                  && ReadRow(rows[i]).value.0 < ReadRow(rows[j]).value.0)
            && (forall p :: p in results ==> exists i :: 4 <= i < |rows| && ReadRow(rows[i]) == Some((p, results[p])))
  {
    var ps := SortedSeq(results.Keys);
    CsvShape(host, results, elapsed);
    ReadEachDataRow(ps, results);
    DataBlock(CsvRows(host, results, elapsed), Preamble(host, elapsed), DataRows(ps, results), ps, results);
  }

  lemma {:induction false} DataBlock(rows: seq<seq<string>>, pre: seq<seq<string>>, data: seq<seq<string>>,
                                     ps: seq<int>, results: map<int, PortInfo>)
    requires rows == pre + data && |pre| == 4 && |data| == |ps|
    requires StrictlyAscending(ps) && forall p :: p in ps <==> p in results
    requires forall i :: 0 <= i < |ps| ==> ps[i] in results && ReadRow(data[i]) == Some((ps[i], results[ps[i]]))
    ensures forall i :: 4 <= i < |rows| ==>
              ReadRow(rows[i]).Some? && ReadRow(rows[i]).value.0 in results
              && ReadRow(rows[i]).value.1 == results[ReadRow(rows[i]).value.0]
    ensures forall i, j :: 4 <= i < j < |rows| ==>
              ReadRow(rows[i]).Some? && ReadRow(rows[j]).Some?
              && ReadRow(rows[i]).value.0 < ReadRow(rows[j]).value.0
    ensures forall p :: p in results ==> exists i :: 4 <= i < |rows| && ReadRow(rows[i]) == Some((p, results[p]))
  {
    forall i | 4 <= i < |rows|
      ensures ReadRow(rows[i]) == Some((ps[i - 4], results[ps[i - 4]]))
    {
      assert rows[i] == data[i - 4];
    }
    forall p | p in results
      ensures exists i :: 4 <= i < |rows| && ReadRow(rows[i]) == Some((p, results[p]))
    {
      assert p in ps;
      var k :| 0 <= k < |ps| && ps[k] == p;
      assert ReadRow(rows[k + 4]) == Some((p, results[p]));
    }
  }
}

=== FILE: scanner.dfy ===
/**
  The bookkeeping of `scan_host`: each port's probe outcome, enriched with
  the service-name guess, collected into one result map. The TCP connect
  attempt is an oracle `probe`, and the thread pool's completion order is
  a parameter `order` that may be any rearrangement of the submitted ports.
 */
module Scanner {
  import opened Fallible
  import opened Ordered
  import opened CommonPorts

  /** The result entry for one port: `{"open": ..., "service_guess": ...}`. */
  datatype PortInfo = PortInfo(isOpen: bool, serviceGuess: string)

  /** What one finished probe reports: the port it was given and whether a
      connection was accepted. */
  datatype Outcome = Outcome(port: int, isOpen: bool)

  /** `ThreadPoolExecutor` refuses a pool without workers. */
  datatype ScanError = NoWorkers(workers: int)

  /** `scan_port` with the socket replaced by `probe`: a refused or timed
      out `connect_ex`, and an exception inside the `try`, are
      `probe(port) == false`. A failing `socket()` or `settimeout` sits
      outside the `try` and is not modelled. */
  function ScanPort(probe: int -> bool, port: int): (o: Outcome)
    ensures o.port == port
    ensures o.isOpen <==> probe(port)
  {
    Outcome(port, probe(port))
  }

  /** The entry a scan should record for `port`. */
  function Expected(probe: int -> bool, port: int): PortInfo {
    PortInfo(probe(port), ServiceGuess(port))
  }

  /** The reference result: one expected entry for every submitted port. */
  function ExpectedResults(probe: int -> bool, ports: seq<int>): map<int, PortInfo> {
    map p | p in ports :: Expected(probe, p)
  }

  /** `results[port] = {...}` for one finished probe: look up the guess
      and store the entry under the reported port, replacing any earlier
      entry. */
  function Record(results: map<int, PortInfo>, o: Outcome): (r: map<int, PortInfo>)
    ensures r.Keys == results.Keys + {o.port}
    ensures r[o.port] == PortInfo(o.isOpen, ServiceGuess(o.port))
    ensures forall p :: p in results && p != o.port ==> r[p] == results[p]
  {
    results[o.port := PortInfo(o.isOpen, ServiceGuess(o.port))]
  }

  /** The `as_completed` loop: record the probes in the order `done` in
      which they finish. */
  function Collect(probe: int -> bool, acc: map<int, PortInfo>, done: seq<int>): (r: map<int, PortInfo>)
    ensures forall p :: p in r <==> p in acc || p in done
    ensures forall p :: p in done ==> r[p] == Expected(probe, p)
    ensures forall p :: p in acc && p !in done ==> r[p] == acc[p]
    decreases |done|
  {
    if done == [] then acc
    else
      var next := Record(acc, ScanPort(probe, done[0]));
      var r := Collect(probe, next, done[1..]);
      HeadAndTail(done);
      r
  }

  /** `scan_host(host, ports, workers=workers)` without the elapsed time:
      every port in `ports` is probed, and the outcomes arrive in the order
      `order`, which holds each submitted port as often as `ports` does. */
  function ScanHost(probe: int -> bool, ports: seq<int>, workers: int, order: seq<int>)
    : (r: Result<map<int, PortInfo>, ScanError>)
    requires multiset(order) == multiset(ports)
    ensures r.Err? <==> workers <= 0
    ensures r.Ok? ==> forall p :: p in r.value <==> p in ports
    ensures r.Ok? ==> forall p :: p in ports ==> r.value[p] == Expected(probe, p)
  {
    if workers <= 0 then Err(NoWorkers(workers))
    else
      var r := Collect(probe, map[], order);
      assert forall p :: p in order <==> p in ports by {
        forall p ensures p in order <==> p in ports {
          assert p in order <==> p in multiset(order);
          assert p in ports <==> p in multiset(ports);
        }
      }
      Ok(r)
  }

  /** A successful scan is the reference result. */
  lemma {:induction false} ScanMatchesExpected(probe: int -> bool, ports: seq<int>, workers: int, order: seq<int>)
    requires multiset(order) == multiset(ports) && workers > 0
    ensures ScanHost(probe, ports, workers, order) == Ok(ExpectedResults(probe, ports))
  {
    var r := ScanHost(probe, ports, workers, order).value;
    var e := ExpectedResults(probe, ports);
    assert r.Keys == e.Keys;
    assert forall p :: p in r ==> r[p] == e[p];
    assert r == e;
  }

  /** The result does not depend on the order in which the probes finish
      nor on the size of the pool. */
  lemma {:induction false} OrderIrrelevant(probe: int -> bool, ports: seq<int>,
                                           w1: int, order1: seq<int>, w2: int, order2: seq<int>)
    requires multiset(order1) == multiset(ports) && multiset(order2) == multiset(ports)
    requires w1 > 0 && w2 > 0
    ensures ScanHost(probe, ports, w1, order1) == ScanHost(probe, ports, w2, order2)
  {
    ScanMatchesExpected(probe, ports, w1, order1);
    ScanMatchesExpected(probe, ports, w2, order2);
  }

  /** Repeating a port in the list does not change the result. */
  lemma {:induction false} DuplicatesIrrelevant(probe: int -> bool, ports: seq<int>, p: int,
                                                workers: int, order1: seq<int>, order2: seq<int>)
    requires p in ports && workers > 0
    requires multiset(order1) == multiset(ports) && multiset(order2) == multiset(ports + [p])
    ensures ScanHost(probe, ports + [p], workers, order2) == ScanHost(probe, ports, workers, order1)
  {
    ScanMatchesExpected(probe, ports, workers, order1);
    ScanMatchesExpected(probe, ports + [p], workers, order2);
    assert forall q :: q in ports + [p] <==> q in ports;
    assert ExpectedResults(probe, ports + [p]) == ExpectedResults(probe, ports);
  }

  /** Scanning no ports gives an empty result. */
  lemma {:induction false} ScanNothing(probe: int -> bool, workers: int)
    requires workers > 0
    ensures ScanHost(probe, [], workers, []) == Ok(map[])
  {
    var r := ScanHost(probe, [], workers, []).value;
    assert r.Keys == {};
  }

  /** For a port list as the parser produces it, the result has one entry
      per listed port. */
  lemma {:induction false} ScanSize(probe: int -> bool, ports: seq<int>, workers: int, order: seq<int>)
    requires StrictlyAscending(ports)
    requires multiset(order) == multiset(ports) && workers > 0
    ensures |ScanHost(probe, ports, workers, order).value| == |ports|
  {
    var r := ScanHost(probe, ports, workers, order).value;
    assert r.Keys == set p | p in ports;
    AscendingCardinality(ports);
  }
}

=== FILE: scenario.dfy ===
/**
  A whole run: the three ports `L`, `L+1`, `L+2`
  around one listening port `L+1` are parsed from the text `"L-L+2"`,
  scanned, and reported.
 */
module Scenario {
  import opened Fallible
  import opened Decimal
  import opened Ordered
  import opened CommonPorts
  import opened PortSpec
  import opened Scanner
  import opened Report

  /** Only `port` accepts connections. */
  ghost predicate OnlyListener(probe: int -> bool, port: int) {
    forall q :: probe(q) <==> q == port
  }

  /** `--ports L-L+2` names the three ports from `L` to `L+2`. */
  lemma {:induction false} ParseAround(low: nat)
    ensures ParsePorts(ShowNat(low) + "-" + ShowNat(low + 2)) == Ok([low, low + 1, low + 2])
  {
    ParseRange(low, low + 2);
    ListingOfThree(ParsePorts(ShowNat(low) + "-" + ShowNat(low + 2)).value, low);
  }

  /** Scanning those three ports while only the middle one listens gives
      three entries, only the middle one open and carrying its guess. */
  lemma {:induction false} ScanAround(probe: int -> bool, low: nat, workers: int, order: seq<int>)
    requires OnlyListener(probe, low + 1) && workers > 0
    requires multiset(order) == multiset([low, low + 1, low + 2])
    ensures var r := ScanHost(probe, [low, low + 1, low + 2], workers, order);
            && r.Ok? && |r.value| == 3
            && r.value[low + 1] == PortInfo(true, ServiceGuess(low + 1))
            && !r.value[low].isOpen && !r.value[low + 2].isOpen
            && OpenPorts(r.value) == [low + 1]
  {
    var ports := [low, low + 1, low + 2];
    ScanSize(probe, ports, workers, order);
    AroundResult(probe, low, ScanHost(probe, ports, workers, order).value, ports);
  }

  lemma {:induction false} AroundResult(probe: int -> bool, low: nat, r: map<int, PortInfo>, ports: seq<int>)
    requires OnlyListener(probe, low + 1)
    requires ports == [low, low + 1, low + 2]
    requires forall p :: p in r <==> p in ports
    requires forall p :: p in ports ==> r[p] == Expected(probe, p)
    ensures low in r && low + 1 in r && low + 2 in r
    ensures r[low + 1] == PortInfo(true, ServiceGuess(low + 1))
    ensures !r[low].isOpen && !r[low + 2].isOpen
    ensures OpenPorts(r) == [low + 1]
  {
    assert low in ports && low + 1 in ports && low + 2 in ports;
    OnlyMiddleOpen(probe, low, r, ports);
  }

  lemma {:induction false} OnlyMiddleOpen(probe: int -> bool, low: nat, r: map<int, PortInfo>, ports: seq<int>)
    requires OnlyListener(probe, low + 1)
    requires ports == [low, low + 1, low + 2]
    requires forall p :: p in r <==> p in ports
    requires forall p :: p in ports ==> r[p] == Expected(probe, p)
    ensures OpenPorts(r) == [low + 1]
  {
    forall q | q in OpenPorts(r)
      ensures q == low + 1
    {
      assert q in ports;
    }
    assert low + 1 in ports;
    AscendingUnique(OpenPorts(r), [low + 1]);
  }

  /** The printed report of that scan lists the middle port alone, with its guess. */
  lemma {:induction false} ReportAround(probe: int -> bool, low: nat, workers: int, order: seq<int>,
                                         host: string, elapsed: string)
    requires OnlyListener(probe, low + 1) && workers > 0
    requires multiset(order) == multiset([low, low + 1, low + 2])
    ensures var r := ScanHost(probe, [low, low + 1, low + 2], workers, order);
            r.Ok? && Listed(PrettyLines(r.value, host, elapsed)) == [(low + 1, ServiceGuess(low + 1))]
  {
    ScanAround(probe, low, workers, order);
    var r := ScanHost(probe, [low, low + 1, low + 2], workers, order).value;
    PrettyListsOpenPorts(r, host, elapsed);
  }
}

=== FILE: text.dfy ===
/**
  The few Python `str` operations the port-spec parser relies on:
  `strip()`, `split(sep)` and `split(sep, 1)`, on strings as `seq<char>`.
 */
module Text {

  /** The characters below U+0080 that Python's `str.isspace` accepts;
      `str.strip()` removes exactly these from both ends. */
  predicate IsSpace(c: char) {
    c == ' ' || c == '\t' || c == '\n' || c == '\r' || c == '\U{B}' || c == '\U{C}'
    || ('\U{1C}' <= c <= '\U{1F}')
  }

  predicate AllSpace(s: string) {
    forall k :: 0 <= k < |s| ==> IsSpace(s[k])
  }

  /** The number of whitespace characters `s` starts with. */
  function LeadingSpace(s: string): (n: nat)
    ensures n <= |s| && AllSpace(s[..n])
    ensures n < |s| ==> !IsSpace(s[n])
  {
    if s != [] && IsSpace(s[0]) then
      var n := 1 + LeadingSpace(s[1..]);
      assert s[..n] == [s[0]] + s[1..][..n - 1];
      n
    else
      0
  }

  /** The number of whitespace characters `s` ends with. */
  function TrailingSpace(s: string): (n: nat)
    ensures n <= |s| && AllSpace(s[|s| - n..])
    ensures n < |s| ==> !IsSpace(s[|s| - n - 1])
  {
    if s != [] && IsSpace(s[|s| - 1]) then
      var n := 1 + TrailingSpace(s[..|s| - 1]);
      assert s[|s| - n..] == s[..|s| - 1][|s| - n..] + [s[|s| - 1]];
      n
    else
      0
  }

  /** Python's `s.strip()`: `s` without the whitespace at either end. */
  function Strip(s: string): (r: string)
    ensures |r| <= |s|
    ensures r == [] || (!IsSpace(r[0]) && !IsSpace(r[|r| - 1]))
  {
    DropTrailingSpace(s[LeadingSpace(s)..])
  }

  /** What `strip` removes is whitespace, and what it keeps is one
      contiguous piece of `s`. */
  lemma {:induction false} StripIsTrimmedInfix(s: string)
    ensures var r := Strip(s);
            exists i :: 0 <= i <= |s| - |r| && r == s[i..i + |r|]
                        && AllSpace(s[..i]) && AllSpace(s[i + |r|..])
  {
    StripAtLeadingSpace(s);
  }

  lemma {:induction false} StripAtLeadingSpace(s: string)
    ensures var r, i := Strip(s), LeadingSpace(s);
            0 <= i <= |s| - |r| && r == s[i..i + |r|]
            && AllSpace(s[..i]) && AllSpace(s[i + |r|..])
  {
    var i := LeadingSpace(s);
    StripAfter(s, i);
    PrefixOfSuffix(s, i, DropTrailingSpace(s[i..]));
  }

  lemma {:induction false} PrefixOfSuffix(s: string, i: nat, r: string)
    requires i <= |s| && |r| <= |s| - i
    requires r == s[i..][..|r|] && AllSpace(s[i..][|r|..])
    ensures r == s[i..i + |r|] && AllSpace(s[i + |r|..])
  {
    assert s[i..][|r|..] == s[i + |r|..];
  }

  /** Every character of the strip comes from `s`. */
  lemma {:induction false} StripKeepsCharacters(s: string)
    ensures forall c :: c in Strip(s) ==> c in s
  {
    var i := LeadingSpace(s);
    assert Strip(s) == s[i..][..|Strip(s)|];
  }

  /** `t` without its trailing whitespace. */
  function DropTrailingSpace(t: string): (r: string)
    ensures |r| <= |t| && r == t[..|r|] && AllSpace(t[|r|..])
    ensures r == [] || !IsSpace(r[|r| - 1])
  {
    t[..|t| - TrailingSpace(t)]
  }

  /** Any count meeting `LeadingSpace`'s contract is `LeadingSpace`. */
  lemma {:induction false} LeadingSpaceUnique(s: string, n: nat)
    requires n <= |s| && AllSpace(s[..n])
    requires n < |s| ==> !IsSpace(s[n])
    ensures LeadingSpace(s) == n
  {
  }

  /** Any count meeting `TrailingSpace`'s contract is `TrailingSpace`. */
  lemma {:induction false} TrailingSpaceUnique(s: string, n: nat)
    requires n <= |s| && AllSpace(s[|s| - n..])
    requires n < |s| ==> !IsSpace(s[|s| - n - 1])
    ensures TrailingSpace(s) == n
  {
  }

  /** Stripping leaves nothing exactly when the string is all whitespace. */
  lemma {:induction false} StripEmptyIff(s: string)
    ensures Strip(s) == [] <==> AllSpace(s)
  {
    if AllSpace(s) {
      LeadingSpaceUnique(s, |s|);
    }
  }

  /** A string with no whitespace at either end is its own strip. */
  lemma {:induction false} StripUnpadded(s: string)
    requires s != [] && !IsSpace(s[0]) && !IsSpace(s[|s| - 1])
    ensures Strip(s) == s
  {
    LeadingSpaceUnique(s, 0);
    TrailingSpaceUnique(s, 0);
  }

  /** Whitespace added around a string does not change its strip. */
  lemma {:induction false} StripPadded(w1: string, s: string, w2: string)
    requires AllSpace(w1) && AllSpace(w2)
    ensures Strip(w1 + s + w2) == Strip(s)
  {
    if LeadingSpace(s) == |s| {
      StripPaddedBlank(w1, s, w2);
    } else {
      StripPaddedText(w1, s, w2);
    }
  }

  lemma {:induction false} StripPaddedBlank(w1: string, s: string, w2: string)
    requires AllSpace(w1) && AllSpace(w2) && LeadingSpace(s) == |s|
    ensures Strip(w1 + s + w2) == Strip(s) == []
  {
    var x := w1 + s + w2;
    assert s[..|s|] == s;
    assert AllSpace(x) by {
      forall k | 0 <= k < |x| ensures IsSpace(x[k]) {
        if k < |w1| {
          assert x[k] == w1[k];
        } else if k < |w1| + |s| {
          assert x[k] == s[k - |w1|];
        } else {
          assert x[k] == w2[k - |w1| - |s|];
        }
      }
    }
    StripEmptyIff(x);
    StripEmptyIff(s);
  }

  lemma {:induction false} StripPaddedText(w1: string, s: string, w2: string)
    requires AllSpace(w1) && AllSpace(w2) && LeadingSpace(s) < |s|
    ensures Strip(w1 + s + w2) == Strip(s)
  {
    var i := LeadingSpace(s);
    LeadingSpacePadded(w1, s, w2);
    SuffixOfPadded(w1, s, w2, i);
    DropTrailingPadded(s[i..], w2);
    StripAfter(w1 + s + w2, |w1| + i);
    StripAfter(s, i);
  }

  /** `Strip` once the leading whitespace is known. */
  lemma {:induction false} StripAfter(x: string, n: nat)
    requires n <= |x| && LeadingSpace(x) == n
    ensures Strip(x) == DropTrailingSpace(x[n..])
  {
  }

  lemma {:induction false} SuffixOfPadded(w1: string, s: string, w2: string, i: nat)
    requires i <= |s|
    ensures (w1 + s + w2)[|w1| + i..] == s[i..] + w2
  {
  }

  lemma {:induction false} DropTrailingPadded(t: string, w2: string)
    requires AllSpace(w2) && t != [] && !IsSpace(t[0])
    ensures DropTrailingSpace(t + w2) == DropTrailingSpace(t)
  {
    var u := t + w2;
    var k := TrailingSpace(t);
    TrailingSpacePadded(t, w2);
    assert u[..|t| - k] == t[..|t| - k];
  }

  lemma {:induction false} LeadingSpacePadded(w1: string, s: string, w2: string)
    requires AllSpace(w1) && LeadingSpace(s) < |s|
    ensures LeadingSpace(w1 + s + w2) == |w1| + LeadingSpace(s)
  {
    var x := w1 + s + w2;
    var i := LeadingSpace(s);
    assert x[..|w1| + i] == w1 + s[..i];
    assert x[|w1| + i] == s[i];
    LeadingSpaceUnique(x, |w1| + i);
  }

  lemma {:induction false} TrailingSpacePadded(t: string, w2: string)
    requires AllSpace(w2) && t != [] && !IsSpace(t[0])
    ensures TrailingSpace(t + w2) == TrailingSpace(t) + |w2|
  {
    var u := t + w2;
    var k := TrailingSpace(t);
    assert k < |t|;
    var tail := t[|t| - k..];
    assert AllSpace(tail);
    assert u[|u| - (k + |w2|)..] == tail + w2;
    assert AllSpace(tail + w2) by {
      forall j | 0 <= j < |tail + w2| ensures IsSpace((tail + w2)[j]) {
        if j < |tail| {
          assert (tail + w2)[j] == tail[j];
        } else {
          assert (tail + w2)[j] == w2[j - |tail|];
        }
      }
    }
    assert u[|u| - (k + |w2|) - 1] == t[|t| - k - 1];
    TrailingSpaceUnique(u, k + |w2|);
  }

  /** The position of the first `c` in `s`. */
  function IndexOf(s: string, c: char): (i: nat)
    requires c in s
    ensures i < |s| && s[i] == c && c !in s[..i]
  {
    if s[0] == c then 0 else 1 + IndexOf(s[1..], c)
  }

  /** The two halves of Python's `s.split(sep, 1)` when `sep in s`. */
  datatype Halves = Halves(before: string, after: string)

  /** Python's `s.split(sep, 1)` on a string that contains `sep`: the text
      before the first `sep` and everything after it. */
  function SplitOnce(s: string, sep: char): (r: Halves)
    requires sep in s
    ensures sep !in r.before
    ensures s == r.before + [sep] + r.after
  {
    var i := IndexOf(s, sep);
    assert s == s[..i] + [sep] + s[i + 1..];
    Halves(s[..i], s[i + 1..])
  }

  /** `SplitOnce` cuts at the first separator, wherever that is. */
  lemma {:induction false} SplitOnceAt(s: string, sep: char, i: nat)
    requires i < |s| && s[i] == sep && sep !in s[..i]
    ensures SplitOnce(s, sep) == Halves(s[..i], s[i + 1..])
  {
    var h := SplitOnce(s, sep);
    assert s[..|h.before|] == h.before;
    assert |h.before| == i;
    assert s[i + 1..] == h.after;
  }

  /** The pieces `ps` joined with `sep` between neighbours: the inverse of `Split`. */
  function Join(ps: seq<string>, sep: char): string
    requires |ps| > 0
  {
    if |ps| == 1 then ps[0] else ps[0] + [sep] + Join(ps[1..], sep)
  }

  /** Python's `s.split(sep)` for a one-character separator: the maximal
      runs between separators, one more piece than `s` has separators. */
  function Split(s: string, sep: char): (r: seq<string>)
    ensures |r| > 0
    ensures forall i :: 0 <= i < |r| ==> sep !in r[i]
    ensures Join(r, sep) == s
    decreases |s|
  {
    if sep in s then
      var i := IndexOf(s, sep);
      var rest := Split(s[i + 1..], sep);
      assert s == s[..i] + [sep] + s[i + 1..];
      [s[..i]] + rest
    else
      [s]
  }

  /** Splitting a join gives back its pieces: the pieces are determined by
      the string. */
  lemma {:induction false} SplitJoin(ps: seq<string>, sep: char)
    requires |ps| > 0
    requires forall i :: 0 <= i < |ps| ==> sep !in ps[i]
    ensures Split(Join(ps, sep), sep) == ps
  {
    if |ps| == 1 {
    } else {
      var s := Join(ps, sep);
      assert s == ps[0] + [sep] + Join(ps[1..], sep);
      assert sep in s by { assert s[|ps[0]|] == sep; }
      var i := IndexOf(s, sep);
      assert i == |ps[0]|;
      assert s[..i] == ps[0];
      assert s[i + 1..] == Join(ps[1..], sep);
      SplitJoin(ps[1..], sep);
    }
  }

  lemma {:induction false} JoinAppend(p: seq<string>, q: seq<string>, sep: char)
    requires |p| > 0 && |q| > 0
    ensures Join(p + q, sep) == Join(p, sep) + [sep] + Join(q, sep)
  {
    if |p| == 1 {
      assert (p + q)[1..] == q;
    } else {
      assert (p + q)[1..] == p[1..] + q;
      JoinAppend(p[1..], q, sep);
    }
  }

  /** Splitting `a + sep + b` splits `a` and `b` separately. */
  lemma {:induction false} SplitAppend(a: string, b: string, sep: char)
    ensures Split(a + [sep] + b, sep) == Split(a, sep) + Split(b, sep)
  {
    var p, q := Split(a, sep), Split(b, sep);
    JoinAppend(p, q, sep);
    forall i | 0 <= i < |p + q|
      ensures sep !in (p + q)[i]
    {
      if i >= |p| {
        assert (p + q)[i] == q[i - |p|];
      }
    }
    SplitJoin(p + q, sep);
  }
}
